=== FILE: README.md ===
# A verified model of the static-site generator's server

The server has two endpoints. `POST /api/generate` forwards a user's prompt to a
text-completion endpoint and turns the answer into a bundle of three files:
`index.html`, `styles.css` and `script.js`. `POST /api/download` packs a files
object into a zip archive.

This project models the part of `server.js` that makes decisions:

- the configuration the handlers read from the environment;
- the two guards of the generate handler: configuration first, then the prompt;
- the prompt template, `buildPromptForJson`;
- the response normaliser, in five steps: text extraction, trimming and code-fence
  stripping, strict parse with the `{`...`}` fallback, alias resolution, and the
  mandatory markup check;
- the treatment of a failed upstream call;
- the body check and the entry mapping of the download handler.

JavaScript values are a `Json` datatype. Each object keeps its fields in the order
`Object.keys` reports them. JavaScript truthiness, `typeof`, optional-chaining
property reads, `Object.keys`, `Object.entries` and the `"" + v` coercion are
written out in Dafny. So are `String.prototype.trim` over the ECMAScript whitespace
set, `indexOf` and `lastIndexOf`.

`JSON.parse`, `JSON.stringify`, number formatting and the messages of two
TypeErrors are built-ins whose internals are not modelled. The first TypeError is
thrown by `"" + text` on an object with its own `toString` field. The second is
thrown by reading a property of `null`. They are fields of a `Runtime` value,
so every property holds for every behaviour of those built-ins. The upstream
endpoint is a function parameter `call` of the generate handler. Every upstream
answer and every failure is therefore covered.

Modules:

- `Wrappers`: `Option`.
- `Values`: JavaScript values and the language operations listed above.
- `Text`: `trim`, `indexOf`, `lastIndexOf`, prefix and suffix tests.
- `Replies`: the replies of both endpoints, their status codes and JSON bodies.
- `Normalizer`: the five steps, and `Normalize`, the whole normaliser.
- `NormalizerFacts`: properties that relate the steps to each other and to the
  payload shapes the completion endpoint sends.
- `Server`: configuration, the prompt template, the generate handler and the
  download handler.

In these places the code is narrower than one might assume; the model follows the code:

- Fence stripping is not idempotent. One opener and one closing fence are removed
  per pass. A text with two openers, such as "```json```" followed by a text, keeps
  the second fence after one pass and loses it on the next
  (`Normalizer.CleanNotIdempotent`).
- Only the letters `json` are removed after the opening fence. A tag that does not
  begin with `json`, such as `html`, stays at the start of the text
  (`Normalizer.CleanBareFence`, `Normalizer.CleanKeepsOtherTags`). The pattern has
  no word boundary after `json`, so a tag that begins with it, such as `jsonc`,
  loses those four letters and keeps the rest (`Normalizer.CleanJsonPrefixedTag`,
  `Normalizer.CleanJsoncBlock`).
- Alias resolution takes the first TRUTHY value, not the first key that is
  present. An empty `index.html` gives way to `index`
  (`NormalizerFacts.FirstTruthyNotFirstPresent`).
- The prompt is not trimmed before the check. A prompt made only of spaces passes
  and reaches the upstream endpoint (`Server.SpacePromptAccepted`).
- A strict parse that succeeds is final, whatever value it yields. The value `null`
  makes the key mapping throw, and the outer catch answers 500 with the message of
  the null-read TypeError. A number or a boolean answers 502 with an empty key list
  (`NormalizerFacts.StrictParseIsFinal`).
- A payload in none of the four shapes is serialised. When its serialised form has
  no space or fence at either end and `JSON.parse` reads it back as the payload,
  the payload itself is mapped as if it were the bundle. An upstream error object
  then gets the 502 listing its keys, `null` the null-read 500, and an object with
  a truthy markup alias a bundle. The invalid-JSON 502 never arises in that case (`NormalizerFacts.UnrecognisedPayloadMapped`,
  `NormalizerFacts.UpstreamErrorObject`).
- The `keys` of the missing-markup reply are `Object.keys` of the parsed value. For
  an array or a string these are index names, not field names.

## Model

| member | source | states |
|---|---|---|
| Values.LookupFindsFirst | server.js:101-103 | A property read finds nothing exactly when no own field has the name; otherwise it finds the value of the first field with that name. |
| Values.LookupAt | server.js:101-103 | A field decides a property read when no earlier field has its name. |
| Values.DecimalInjective | server.js:106 | Different array indices have different key names. |
| Values.IndexKeysDistinct | server.js:106 | `Object.keys` of an array or a string names each index once, so the key list has no repeats. |
| Values.KeysAreEntryNames | server.js:138 | `Object.keys` lists exactly the names that `Object.entries` pairs with values, in the same order. |
| Values.ToTextOfPrimitive | server.js:71 | The coercion `"" + text` never throws on a string, number, boolean or null, and leaves a string unchanged. |
| Values.ToText | server.js:71 | `"" + text` leaves a string unchanged. It throws only on an object or an array. On an object it throws exactly when the object has its own `toString` field. On an array it throws exactly when an element other than `null` throws. |
| Values.JoinTexts | server.js:71 | Joining the elements of an array throws exactly when an element other than `null` throws. |
| Text.LeadingSpace | server.js:71 | Counts the leading run of ECMAScript whitespace: every counted character is a space and the next one is not. |
| Text.TrailingSpace | server.js:71 | Counts the trailing run of ECMAScript whitespace: every counted character is a space and the one before is not. |
| Text.Trim | server.js:71 | `trim` returns a text with no space at either end, no longer than the input. It is empty exactly when the input is all spaces. |
| Text.LeadingSpaceConcat | server.js:71 | The leading spaces of a concatenation are those of the first part; when the first part is all spaces, they continue into the second part. |
| Text.TrimShape | server.js:71 | `trim` returns a run of the input with no space at either end, and everything cut off is whitespace. |
| Text.TrimUnique | server.js:71 | `trim` of spaces, then a text with no space at either end, then spaces, is that text. |
| Text.TrimIdempotent | server.js:74 | Trimming twice is trimming once. |
| Text.IndexOf | server.js:82 | `indexOf` is the first position of the character, and -1 exactly when the character is absent. |
| Text.LastIndexOf | server.js:83 | `lastIndexOf` is the last position of the character, and -1 exactly when the character is absent. |
| Normalizer.Extract | server.js:63-69 | A string payload is its own text. Any other payload gives a truthy shape value or its serialised form, so extraction never fails. |
| Normalizer.ExtractFirstTruthyShape | server.js:64-69 | Extraction takes the first of the four shapes, in priority order, that holds a truthy value. It falls back to the serialised payload only when no shape does. |
| NormalizerFacts.KnownShapes | server.js:65-68 | Each of the four known payload shapes yields exactly the text embedded in it. |
| NormalizerFacts.EmptyShapeFallsThrough | server.js:65-69 | An empty text in a known shape does not count: probing moves on, down to the serialised payload. |
| Normalizer.OpenerLength | server.js:74 | The removed opener is empty exactly when the text does not start with a fence. Otherwise it is a fence, an optional `json` tag and spaces, stopping at the first non-space character. |
| Normalizer.OpenerIsLongestMatch | server.js:74 | No longer prefix matches `^```(?:json)?\s*` in full, so the removal is the greedy match. With no leading fence, nothing matches. |
| Normalizer.StripCloser | server.js:74 | Only a fence that ends the text is dropped; any other text is unchanged. |
| Normalizer.CleanText | server.js:71-74 | The cleaned text has no space at either end and is no longer than the raw text. |
| Normalizer.CleanTextShape | server.js:71-74 | The cleaned text is a contiguous run of the raw text with no space at either end, so the interior is never altered. |
| Normalizer.CleanUnfenced | server.js:71-74 | Text with a fence at neither end is only trimmed. |
| Normalizer.CleanJsonBlock | server.js:71-74 | Any body wrapped in a `json` code block comes out as the trimmed body. A body with no space at either end comes out exactly as it is. |
| Normalizer.CleanBareFence | server.js:74 | A bare opening fence before a text is removed and the text kept, when the text has no space at either end, does not begin with `json` and does not end in a backtick. |
| Normalizer.CleanNotIdempotent | server.js:74 | Cleaning "```json```" plus a text leaves a fence that a second cleaning removes, so cleaning is not idempotent. |
| Normalizer.CleanKeepsOtherTags | server.js:74 | An `html` tag stays in the cleaned text, before a body with no space at either end that does not end in a backtick. |
| Normalizer.CleanJsonPrefixedTag | server.js:74 | After a fence, the letters `json` are removed even when more of a tag follows, from any text with no space at either end that does not end in a backtick. |
| Normalizer.CleanJsoncBlock | server.js:74 | A `jsonc` block loses `json` from its tag: "```jsonc", a line break and a body cleans to "c", a line break and the body, for any body with no space at either end that does not end in a backtick. |
| Normalizer.JsonSpan | server.js:82-84 | A span exists exactly when some `{` comes before some `}`. It runs from the first `{` to the last `}`. |
| Normalizer.Candidate | server.js:82-86 | The fallback candidate is the slice of the text from the first `{` to the last `}`, both included. It exists exactly when a span does. |
| Normalizer.ParseText | server.js:76-98 | A strict parse that succeeds is taken as it is. Otherwise the span is parsed, and its result is kept only when truthy. The text is unparsed exactly when both fail. |
| NormalizerFacts.SpanFallback | server.js:80-91 | After a failed strict parse, a text with a `{` before a `}` is parsed through its span, and the result counts exactly when it is truthy. |
| NormalizerFacts.SpanIsFirstOpenToLastClose | server.js:82-84 | The span covers every `{`...`}` pair of the text. |
| Normalizer.Preview | server.js:91-96 | The preview is a prefix of the cleaned text, of length min(length, 2000). |
| Normalizer.Resolve | server.js:101-103 | A slot resolves to a truthy value or to "". It is truthy exactly when some alias holds a truthy value, and is then the value of the first such alias. Falsy aliases are passed over. |
| NormalizerFacts.FirstTruthyNotFirstPresent | server.js:101 | An empty `index.html` gives way to a non-empty `index`. |
| Normalizer.MapBundle | server.js:100-109 | `null` gives the 500 with the message of the null-read TypeError. Another value gives a bundle exactly when its markup resolves truthy, else the 502 listing the value's own keys. A bundle's three files are the resolved slots. |
| NormalizerFacts.BundleIffMarkupAlias | server.js:101-107 | A parsed value other than `null` gives a bundle exactly when one of `index.html`, `index` or `html` holds a truthy value. |
| NormalizerFacts.CanonicalReproduced | server.js:101-109 | An object whose three canonical keys hold truthy values is reproduced unchanged, whatever other keys it has. |
| NormalizerFacts.OneAliasPerSlot | server.js:101-103 | In an object with one alias of each slot, any of the three aliases per slot, each slot resolves to the value under its alias when that value is truthy, and to "" otherwise. |
| NormalizerFacts.AliasesMapLikeCanonical | server.js:101-109 | An object with one alias of each slot, in any combination of the three aliases per slot and with truthy markup, maps to the same reply as the canonical object with the same values. |
| NormalizerFacts.MarkupAloneSuffices | server.js:101-109 | An object whose only key is one of the three markup aliases, holding a truthy value, gives a bundle with that markup, an empty stylesheet and an empty script. |
| Normalizer.Normalize | server.js:62-109 | The normaliser answers a bundle with truthy markup, a 502 with a preview of at most 2000 characters, a 502 listing keys, or a 500. The stylesheet and the script are truthy or "". |
| NormalizerFacts.InvalidOutputExactly | server.js:76-98 | The 502 for invalid JSON arises exactly when both parses fail. Its preview is the first min(length, 2000) characters of the cleaned text. |
| NormalizerFacts.UncoercibleText | server.js:65-118 | A first choice whose text is an object with its own `toString` field makes the coercion throw, and the outer catch answers 500 with that TypeError's message. |
| NormalizerFacts.StrictParseIsFinal | server.js:76-118 | A successful strict parse is final: the parsed value goes to key mapping. `null` leads to the 500 of the outer catch, with the message of the null-read TypeError. A number or a boolean leads to a 502 with no keys. |
| NormalizerFacts.UnrecognisedPayloadMapped | server.js:64-109 | A payload in none of the four shapes, whose serialised form has no space or fence at either end and parses back to the payload, is mapped as the bundle itself. `null` gives the null-read 500, a value with no truthy markup alias the 502 listing its keys, and the invalid-JSON 502 never arises. |
| NormalizerFacts.UpstreamErrorObject | server.js:64-107 | An error object `{"error": ...}` from the completion endpoint, serialised and parsed back, is answered with the missing-markup 502 whose key list is `["error"]`. |
| NormalizerFacts.ChoiceCompletion | server.js:65-74 | The completion text of a first choice's non-empty text is that text, cleaned. |
| NormalizerFacts.FencedChoiceGivesBundle | server.js:65-109 | A fenced `json` block in the first choice, whose trimmed body parses to a value with a truthy markup alias, comes back as the bundle of the resolved markup, stylesheet and script of that value. |
| NormalizerFacts.FencedBundleWithEmptyAssets | server.js:65-109 | A fenced block whose trimmed body parses to the canonical keys with an empty stylesheet and script answers the markup and two empty strings. |
| Server.EnvOr | server.js:12-14 | A variable that is set and non-empty is used as it is. An unset or empty variable gives the fallback. The result is empty only when the fallback is. |
| Server.LoadConfig | server.js:12-14 | The server is configured exactly when both the key and the URL are set and non-empty. Each of the URL, the key and the model, when set and non-empty, is taken as it is. The model name is never empty. |
| Server.BuildPrompt | server.js:20-28 | A prompt with a non-space character gives the instructions, then the prompt without its trailing spaces; leading spaces are kept. A prompt of spaces gives the instructions alone, ending at "User prompt:". |
| Server.PromptWithText | server.js:20-28 | The trimmed template around a prompt that has a non-space character is the instructions, then the prompt without its trailing spaces. |
| Server.FailureDetail | server.js:117 | The failure detail is the error response's data when truthy, else the error's message, else its rendering. |
| Server.Respond | server.js:46-118 | A delivered payload is answered by the normaliser. A failed call answers 500 with the detail rule above. Neither is ever the misconfiguration or the missing-prompt reply. |
| Server.Generate | server.js:30-58 | 500 misconfigured exactly when the key or URL is empty, checked first. 400 exactly when configured and the prompt is missing, falsy or not a string. No call in either case; otherwise the model, the templated prompt and 2000 tokens are posted to the configured URL. |
| Server.MisconfigurationFirst | server.js:31-33 | A misconfigured server answers 500 with its message and makes no call, whatever the request. |
| Server.BadPromptIs400 | server.js:35-38 | The answer is 400 exactly when the server is configured and the prompt is rejected. |
| Server.EmptyPromptRejected | server.js:36-38 | An empty prompt gets the 400 and no upstream call. |
| Server.SpacePromptAccepted | server.js:36-44 | A prompt of spaces passes the check, and the text sent upstream is the instructions alone. |
| Server.UpstreamFailure | server.js:46-54 | A call that fails gives the 500 of the outer catch, with the detail rule above. The request is still the one the handler built. |
| Server.EntryContent | server.js:139 | A falsy entry content becomes "", and any other content is kept. |
| Server.Download | server.js:123-140 | 400 exactly when `files` is missing or not an object or array. Otherwise the zip headers, and one entry per key of `files`, in order, with its content defaulted to "". |
| Replies.DownloadBody | server.js:126-128 | Only the 400 of the download endpoint has a JSON body, and its `error` is "Missing files object in body."; the archive is sent as a zip stream. |
| Server.DownloadKeepsEntries | server.js:125-139 | Entries whose contents are truthy or "" are archived one for one, in order, with the same names and contents. |
| Server.DownloadOfGenerated | server.js:109-139 | The files object of a successful generation, posted back to the download endpoint, is handed to the archive library as exactly the three files under their canonical names, with their contents unchanged. |
| Server.GeneratedBundleDownloads | server.js:109-139 | Every bundle the normaliser answers is handed to the archive library unchanged after the round trip through the download endpoint. |

## Left out

- HTTP plumbing is not modelled: Express routing, CORS, static files, the 2 MB body limit and the listening port. A request body is a `Json` value.
- The upstream call is a function parameter. The HTTP client, the 30-second timeout and status handling are folded into its `Outcome`.
- Logging and the clock are not modelled. They do not affect any reply.
- `JSON.parse`, `JSON.stringify`, number formatting and the two TypeError messages are parameters, in `Runtime`, so nothing depends on their internals.
- NormalizerFacts.UnrecognisedPayloadMapped: that `JSON.stringify` output has no space or fence at either end and parses back to the value is a precondition, not a proof, because both built-ins are parameters.
- Objects are assumed to have distinct field names, as JavaScript objects do. With repeated names, a read finds the first field, not the last as `JSON.parse` would.
- Property reads cover only names that are not array indices, not `length` and not members of a built-in prototype. Every name the server reads is of that kind.
- Server.DownloadKeepsEntries: `JObj` does not enforce the key order of JavaScript objects, where integer-like keys come first in ascending order. The lemma also ranges over field lists that no JavaScript object has.
- Strings are sequences of characters, not of UTF-16 code units. Lengths, slices and `[0]` count code units in JavaScript, which differ for characters outside the Basic Multilingual Plane.
- Values.ToText: the text of a number is a parameter. An object with an own `toString` field is taken to throw, since JSON cannot make that field callable.
- The archive library is not modelled: compression, streaming, and its 500 when it rejects a content that is not a string or buffer, or an empty name. So a bundle whose markup is a truthy number or object passes `Server.DownloadOfGenerated` but would be rejected there. `Download` models what is handed to it.
- The download handler's outer catch, which answers 500 "Failed to create ZIP", is not modelled. No modelled step throws.
- The browser front end (`public/app.js`) is not modelled. It only posts the files object of a successful generation back to the download endpoint, which `Server.DownloadOfGenerated` covers.

=== FILE: normalizer.dfy ===
/** The response normaliser of `POST /api/generate` (server.js:62-109): it turns
    whatever the completion endpoint answered into the three-file bundle, or into a
    502 reply that says why it could not. */
module Normalizer {
  import opened Wrappers
  import opened Values
  import opened Text
  import opened Replies

  // ---------------------------------------------------------------------------
  // Step 1: text extraction

  /** `upstream?.choices?.[0]?.text` */
  function ChoiceText(p: Json): Option<Json> {
    OptProp(OptIndex0(Prop(p, "choices")), "text")
  }

  /** `upstream?.choices?.[0]?.message?.content` */
  function ChoiceMessage(p: Json): Option<Json> {
    OptProp(OptProp(OptIndex0(Prop(p, "choices")), "message"), "content")
  }

  /** `upstream?.output?.[0]?.content` */
  function OutputContent(p: Json): Option<Json> {
    OptProp(OptIndex0(Prop(p, "output")), "content")
  }

  /** `upstream?.text` */
  function TopText(p: Json): Option<Json> {
    Prop(p, "text")
  }

  const ShapeCount := 4

  /** The payload shapes the handler probes, indexed by priority (0 first). */
  function Shape(k: nat, p: Json): Option<Json>
    requires k < ShapeCount
  {
    [ChoiceText(p), ChoiceMessage(p), OutputContent(p), TopText(p)][k]
  }

  /** The text of the completion: a string payload itself; otherwise the value of the
      first shape, by priority, that holds a truthy value; otherwise the payload
      serialised by `JSON.stringify`. Extraction never fails. */
  function Extract(p: Json, stringify: Json -> string): (r: Json)
    ensures p.JStr? ==> r == p
    ensures !p.JStr? ==> Truthy(r) || r == JStr(stringify(p))
  {
    if p.JStr? then p
    else if TruthyRead(ChoiceText(p)) then ChoiceText(p).value
    else if TruthyRead(ChoiceMessage(p)) then ChoiceMessage(p).value
    else if TruthyRead(OutputContent(p)) then OutputContent(p).value
    else if TruthyRead(TopText(p)) then TopText(p).value
    else JStr(stringify(p))
  }

  /** Extraction agrees with the list of shapes read in priority order: it takes the
      first shape with a truthy value, and the serialised payload only when no
      shape has one. */
  lemma ExtractFirstTruthyShape(p: Json, stringify: Json -> string)
    requires !p.JStr?
    ensures
      || (exists k :: 0 <= k < ShapeCount && Shape(k, p) == Some(Extract(p, stringify))
                      && TruthyRead(Shape(k, p))
                      && forall j :: 0 <= j < k ==> !TruthyRead(Shape(j, p)))
      || ((forall k :: 0 <= k < ShapeCount ==> !TruthyRead(Shape(k, p)))
          && Extract(p, stringify) == JStr(stringify(p)))
  {
    if TruthyRead(ChoiceText(p)) {
      assert Shape(0, p) == ChoiceText(p);
    } else if TruthyRead(ChoiceMessage(p)) {
      assert Shape(0, p) == ChoiceText(p) && Shape(1, p) == ChoiceMessage(p);
    } else if TruthyRead(OutputContent(p)) {
      assert Shape(0, p) == ChoiceText(p) && Shape(1, p) == ChoiceMessage(p);
      assert Shape(2, p) == OutputContent(p);
    } else {
      assert Shape(0, p) == ChoiceText(p) && Shape(1, p) == ChoiceMessage(p);
      assert Shape(2, p) == OutputContent(p) && Shape(3, p) == TopText(p);
    }
  }

  // ---------------------------------------------------------------------------
  // Step 2: trimming and fence stripping

  const Fence := "```"

  /** The strings the pattern `^```(?:json)?\s*` matches in full: a fence, an
      optional `json` tag, then spaces only. */
  predicate IsOpener(w: string) {
    && |w| >= 3 && w[..3] == Fence
    && (|| AllSpace(w[3..])
        || (|w| >= 7 && w[3..7] == "json" && AllSpace(w[7..])))
  }

  /** The text continues a fence with the `json` tag. */
  predicate HasJsonTag(t: string) {
    |t| >= 7 && t[3..7] == "json"
  }

  /** The length of the opener `text.replace(/^```(?:json)?\s*\/, "")` removes: 0 when
      the text does not start with a fence; otherwise the fence, the `json` tag when
      the text continues with it, and every space after them. */
  function OpenerLength(t: string): (n: nat)
    ensures n <= |t|
    ensures n == 0 <==> !StartsWith(t, Fence)
    ensures n > 0 ==> IsOpener(t[..n]) && (n == |t| || !IsSpace(t[n]))
  {
    if StartsWith(t, Fence) then
      var k := if HasJsonTag(t) then 7 else 3;
      var n := k + LeadingSpace(t[k..]);
      assert t[..n][..3] == Fence;
      assert k == 7 ==> t[..n][3..7] == "json";
      assert t[..n][k..] == t[k..][..n - k];
      n
    else
      0
  }

  /** The opener removed is the longest prefix of the text that the pattern matches
      in full, which is the match the greedy pattern selects; with no fence at the
      start, no prefix matches. */
  lemma OpenerIsLongestMatch(t: string)
    ensures forall m :: OpenerLength(t) < m <= |t| ==> !IsOpener(t[..m])
    ensures OpenerLength(t) == 0 ==> forall m :: 0 <= m <= |t| ==> !IsOpener(t[..m])
  {
    var n := OpenerLength(t);
    if n == 0 {
      forall m | 0 <= m <= |t|
        ensures !IsOpener(t[..m])
      {
        if m >= 3 {
          assert t[..m][..3] == t[..3];
        }
      }
    } else {
      var k := if HasJsonTag(t) then 7 else 3;
      assert n == k + LeadingSpace(t[k..]);
      forall m | n < m <= |t|
        ensures !IsOpener(t[..m])
      {
        var w := t[..m];
        assert w[n] == t[n] == t[k..][n - k];
        if k == 7 {
          assert w[3] == 'j';
          assert w[3..][0] == 'j';
          assert w[7..][n - 7] == t[n];
        } else {
          assert w[3..][n - 3] == t[n];
          if m >= 7 {
            assert w[3..7] == t[3..7];
          }
        }
      }
    }
  }

  /** `text.replace(/```$/, "")`: drops a fence that ends the text. */
  function StripCloser(u: string): (r: string)
    ensures EndsWith(u, Fence) ==> u == r + Fence
    ensures !EndsWith(u, Fence) ==> r == u
  {
    if EndsWith(u, Fence) then u[..|u| - 3] else u
  }

  /** The cleaned text: server.js trims the text, removes one opener and one closing
      fence, and trims again. */
  function CleanText(raw: string): (r: string)
    ensures IsTrimmed(r)
    ensures |r| <= |raw|
  {
    var t := Trim(raw);
    Trim(StripCloser(t[OpenerLength(t)..]))
  }

  /** A slice of a slice is a slice of the whole. */
  lemma SubSlice(s: string, a: int, b: int, c: int, d: int)
    requires 0 <= a <= b <= |s| && 0 <= c <= d <= b - a
    ensures s[a..b][c..d] == s[a + c..a + d]
  {
    assert forall k :: 0 <= k < d - c ==> s[a..b][c..d][k] == s[a + c + k];
  }

  /** A run of a run of `s` is a run of `s`. */
  lemma SliceOfTrans(r: string, u: string, s: string)
    requires SliceOf(r, u) && SliceOf(u, s)
    ensures SliceOf(r, s)
  {
    var c, d :| 0 <= c <= d <= |u| && r == u[c..d];
    var a, b :| 0 <= a <= b <= |s| && u == s[a..b];
    SubSlice(s, a, b, c, d);
  }

  lemma TrimIsSlice(s: string)
    ensures SliceOf(Trim(s), s)
  {
    TrimShape(s);
  }

  lemma OpenerCutIsSlice(t: string)
    ensures SliceOf(t[OpenerLength(t)..], t)
  {
    assert t[OpenerLength(t)..] == t[OpenerLength(t)..|t|];
  }

  lemma CloserCutIsSlice(u: string)
    ensures SliceOf(StripCloser(u), u)
  {
    if EndsWith(u, Fence) {
      assert StripCloser(u) == u[0..|u| - 3];
    } else {
      assert u == u[0..|u|];
    }
  }

  /** Cleaning never alters the interior of the text: the result is a run of the
      original characters with no space at either end. */
  lemma CleanTextShape(raw: string)
    ensures IsTrimmed(CleanText(raw))
    ensures SliceOf(CleanText(raw), raw)
  {
    var t := Trim(raw);
    var u := t[OpenerLength(t)..];
    var v := StripCloser(u);
    TrimShape(v);
    TrimIsSlice(v);
    CloserCutIsSlice(u);
    SliceOfTrans(Trim(v), v, u);
    OpenerCutIsSlice(t);
    SliceOfTrans(Trim(v), u, t);
    TrimIsSlice(raw);
    SliceOfTrans(Trim(v), t, raw);
  }

  /** Text with a fence at neither end is only trimmed. */
  lemma CleanUnfenced(raw: string)
    requires !StartsWith(Trim(raw), Fence) && !EndsWith(Trim(raw), Fence)
    ensures CleanText(raw) == Trim(raw)
  {
    var t := Trim(raw);
    assert t[0..] == t;
    TrimIdempotent(raw);
  }

  /** On a text that is already trimmed, cleaning is opener removal, closer
      removal and a final trim. */
  lemma CleanTrimmed(raw: string, n: nat, v: string, r: string)
    requires IsTrimmed(raw)
    requires n == OpenerLength(raw) && v == StripCloser(raw[n..]) && r == Trim(v)
    ensures CleanText(raw) == r
  {
    TrimTrimmed(raw);
  }

  /** The opener of a `json` code block is the fence, the tag and the spaces up to
      the first character that is not one. */
  lemma JsonOpener(raw: string, rest: string)
    requires |raw| >= 7 && raw[..7] == "```json" && raw[7..] == rest
    ensures OpenerLength(raw) == 7 + LeadingSpace(rest)
  {
    assert raw[..3] == raw[..7][..3] == Fence;
    assert raw[3..7] == raw[..7][3..7] == "json";
  }

  /** The spaces after the `json` tag of a code block: the line break, then the
      leading spaces of the body, and when the body is all spaces, the line break
      before the closing fence too. */
  lemma BlockLead(body: string)
    ensures LeadingSpace(body) < |body| ==> LeadingSpace("\n" + body + "\n```") == 1 + LeadingSpace(body)
    ensures LeadingSpace(body) == |body| ==> LeadingSpace("\n" + body + "\n```") == |body| + 2
  {
    var close := "\n```";
    var x := body + close;
    assert "\n" + body + close == "\n" + x;
    SpaceThen('\n', x);
    LeadingSpaceConcat(body, close);
    if LeadingSpace(body) == |body| {
      CloseLead();
    }
  }

  /** A space in front of a text adds one to its leading spaces. */
  lemma SpaceThen(c: char, x: string)
    requires IsSpace(c)
    ensures LeadingSpace([c] + x) == 1 + LeadingSpace(x)
  {
    assert ([c] + x)[1..] == x;
  }

  /** The closing line of a code block starts with exactly one space. */
  lemma CloseLead()
    ensures LeadingSpace("\n```") == 1
  {
    var close := "\n```";
    assert IsSpace(close[0]) && close[1..] == Fence;
    assert !IsSpace(Fence[0]);
  }

  /** The trailing spaces of a text, followed by a line break, are all spaces. */
  lemma SpaceTail(mid: string)
    ensures AllSpace(mid[|mid| - TrailingSpace(mid)..] + "\n")
  {
    var k := |mid| - TrailingSpace(mid);
    var tail := mid[k..] + "\n";
    assert AllSpace(mid[k..]);
    assert forall i :: 0 <= i < |tail| - 1 ==> tail[i] == mid[k..][i];
  }

  lemma SplitBeforeBreak(mid: string, k: nat)
    requires k <= |mid|
    ensures mid + "\n" == "" + mid[..k] + (mid[k..] + "\n")
  {
    assert mid == mid[..k] + mid[k..];
    assert "" + mid[..k] + (mid[k..] + "\n") == mid[..k] + (mid[k..] + "\n");
  }

  /** Once its leading spaces are gone, a body followed by a line break trims to the
      trimmed body. */
  lemma TrimAfterLead(body: string)
    requires LeadingSpace(body) < |body|
    ensures Trim(body[LeadingSpace(body)..] + "\n") == Trim(body)
  {
    var mid := body[LeadingSpace(body)..];
    var k := |mid| - TrailingSpace(mid);
    assert Trim(body) == mid[..k];
    SpaceTail(mid);
    SplitBeforeBreak(mid, k);
    TrimUnique("", mid[..k], mid[k..] + "\n");
  }

  /** What follows the `json` tag of a code block, once the spaces after the tag
      and the closing fence are gone, trims to the trimmed body. */
  lemma JsonBlockTail(body: string) returns (lead: nat)
    ensures lead == LeadingSpace("\n" + body + "\n```")
    ensures Trim(StripCloser(("\n" + body + "\n```")[lead..])) == Trim(body)
  {
    var rest := "\n" + body + "\n```";
    lead := LeadingSpace(rest);
    BlockLead(body);
    var a := LeadingSpace(body);
    var u := rest[lead..];
    if a < |body| {
      var mid := body[a..];
      assert u == mid + "\n```";
      assert StripCloser(u) == mid + "\n" by {
        assert u[|u| - 3..] == Fence;
        assert u[..|u| - 3] == mid + "\n";
      }
      TrimAfterLead(body);
    } else {
      assert u == Fence;
      assert StripCloser(u) == "";
      assert AllSpace(body) by {
        assert body[..a] == body;
      }
    }
  }

  /** A `json` code block around a body is already trimmed. */
  lemma JsonBlockHead(body: string, raw: string, rest: string)
    requires raw == "```json\n" + body + "\n```" && rest == "\n" + body + "\n```"
    ensures |raw| >= 7 && raw[..7] == "```json" && raw[7..] == rest
    ensures IsTrimmed(raw)
  {
    assert raw[0] == '`' && raw[|raw| - 1] == '`';
  }

  /** A body wrapped in a `json` code block comes out as the trimmed body; a body
      with no space at either end comes out unchanged. */
  lemma CleanJsonBlock(body: string)
    ensures CleanText("```json\n" + body + "\n```") == Trim(body)
    ensures IsTrimmed(body) ==> CleanText("```json\n" + body + "\n```") == body
  {
    var raw := "```json\n" + body + "\n```";
    var rest := "\n" + body + "\n```";
    JsonBlockHead(body, raw, rest);
    JsonOpener(raw, rest);
    var lead := JsonBlockTail(body);
    assert raw[7 + lead..] == rest[lead..];
    CleanTrimmed(raw, 7 + lead, StripCloser(rest[lead..]), Trim(body));
    if IsTrimmed(body) {
      TrimTrimmed(body);
    }
  }

  /** A fence glued to the front of a trimmed text that does not end in a backtick
      leaves a trimmed text with no closing fence. */
  lemma FencedHead(rest: string, once: string)
    requires IsTrimmed(rest) && |rest| > 0 && rest[|rest| - 1] != '`'
    requires once == "```" + rest
    ensures once[..3] == Fence && once[3..] == rest
    ensures IsTrimmed(once) && !EndsWith(once, Fence) && !EndsWith(rest, Fence)
    ensures LeadingSpace(once) == 0 && LeadingSpace(rest) == 0
  {
    assert once[|once| - 1] == rest[|rest| - 1];
  }

  /** A bare fence before a trimmed text is stripped, the text kept. */
  lemma CleanBareFence(rest: string)
    requires IsTrimmed(rest) && |rest| > 0 && rest[|rest| - 1] != '`'
    requires !(|rest| >= 4 && rest[..4] == "json")
    ensures CleanText("```" + rest) == rest
  {
    var once := "```" + rest;
    FencedHead(rest, once);
    assert !HasJsonTag(once) by {
      if |once| >= 7 { assert once[3..7] == rest[..4]; }
    }
    TrimTrimmed(rest);
    CleanTrimmed(once, 3, rest, rest);
  }

  /** Cleaning is not idempotent: after a `json` opener, a second fence that starts
      the remaining text survives one pass and goes in the next. */
  lemma CleanNotIdempotent(rest: string)
    requires IsTrimmed(rest) && |rest| > 0 && rest[|rest| - 1] != '`'
    requires !(|rest| >= 4 && rest[..4] == "json")
    ensures CleanText("```json```" + rest) == "```" + rest
    ensures CleanText(CleanText("```json```" + rest)) == rest
  {
    var once := "```" + rest;
    var raw := "```json```" + rest;
    assert raw[..7] == "```json";
    assert raw[7..] == once;
    JsonOpener(raw, once);
    FencedHead(rest, once);
    TrimTrimmed(once);
    assert IsTrimmed(raw) by { assert raw[|raw| - 1] == rest[|rest| - 1]; }
    CleanTrimmed(raw, 7, once, once);
    CleanBareFence(rest);
  }

  /** The opener pattern has no word boundary after `json`: those four letters go
      from any tag that begins with them, so a `jsonc` block keeps only `c` of its
      tag. */
  lemma CleanJsonPrefixedTag(rest: string)
    requires IsTrimmed(rest) && |rest| > 0 && rest[|rest| - 1] != '`'
    ensures CleanText("```json" + rest) == rest
  {
    var raw := "```json" + rest;
    assert raw[..7] == "```json" && raw[7..] == rest;
    JsonOpener(raw, rest);
    assert LeadingSpace(rest) == 0;
    assert IsTrimmed(raw) by { assert raw[|raw| - 1] == rest[|rest| - 1]; }
    assert !EndsWith(rest, Fence);
    TrimTrimmed(rest);
    CleanTrimmed(raw, 7, rest, rest);
  }

  /** The rest of a `jsonc` block after the letters `json` has no space at either end. */
  lemma JsoncRestTrimmed(body: string)
    requires IsTrimmed(body) && |body| > 0 && body[|body| - 1] != '`'
    ensures IsTrimmed("c\n" + body)
  {
    var rest := "c\n" + body;
    assert rest[0] == 'c' && rest[|rest| - 1] == body[|body| - 1];
  }

  /** A `jsonc` block is a fence, the letters `json`, and that rest. */
  lemma JsoncSplit(body: string)
    ensures "```json" + ("c\n" + body) == "```jsonc\n" + body
  {
  }

  /** A `jsonc` code block loses the letters `json` of its tag and keeps the `c`. */
  lemma CleanJsoncBlock(body: string)
    requires IsTrimmed(body) && |body| > 0 && body[|body| - 1] != '`'
    ensures CleanText("```jsonc\n" + body) == "c\n" + body
  {
    JsoncRestTrimmed(body);
    JsoncSplit(body);
    CleanJsonPrefixedTag("c\n" + body);
  }

  /** The facts about "```html\n" + body that cleaning depends on. */
  lemma HtmlHead(body: string, raw: string, rest: string)
    requires IsTrimmed(body) && |body| > 0 && body[|body| - 1] != '`'
    requires raw == "```html\n" + body && rest == "html\n" + body
    ensures raw[..3] == Fence && raw[3..] == rest && !HasJsonTag(raw) && IsTrimmed(raw)
    ensures LeadingSpace(rest) == 0 && !EndsWith(rest, Fence) && IsTrimmed(rest)
  {
    assert raw[3] == 'h' && rest[0] == 'h';
    assert rest[|rest| - 1] == body[|body| - 1];
    assert raw[|raw| - 1] == body[|body| - 1];
  }

  /** A tag that does not begin with `json`, such as `html`, stays in the text. */
  lemma CleanKeepsOtherTags(body: string)
    requires IsTrimmed(body) && |body| > 0 && body[|body| - 1] != '`'
    ensures CleanText("```html\n" + body) == "html\n" + body
  {
    var raw := "```html\n" + body;
    var rest := "html\n" + body;
    HtmlHead(body, raw, rest);
    TrimTrimmed(rest);
    CleanTrimmed(raw, 3, rest, rest);
  }

  // ---------------------------------------------------------------------------
  // Step 3: parsing

  /** The positions of the first `{` and the last `}` of the text, when the last
      `}` comes after the first `{`. */
  function JsonSpan(text: string): (r: Option<(nat, nat)>)
    ensures r.Some? <==> exists i, j :: 0 <= i < j < |text| && text[i] == '{' && text[j] == '}'
    ensures r.Some? ==>
      && r.value.0 < r.value.1 < |text|
      && text[r.value.0] == '{' && text[r.value.1] == '}'
      && (forall k :: 0 <= k < r.value.0 ==> text[k] != '{')
      && (forall k :: r.value.1 < k < |text| ==> text[k] != '}')
  {
    var s := IndexOf(text, '{');
    var e := LastIndexOf(text, '}');
    if s != -1 && e != -1 && e > s then Some((s, e)) else None
  }

  /** `text.slice(s, e + 1)` for the span above. */
  function Candidate(text: string): (r: Option<string>)
    ensures r.Some? ==> |r.value| >= 2 && r.value[0] == '{' && r.value[|r.value| - 1] == '}'
    ensures r.Some? ==> SliceOf(r.value, text)
    ensures r.None? <==> JsonSpan(text).None?
    ensures r.Some? ==> r.value == text[JsonSpan(text).value.0..JsonSpan(text).value.1 + 1]
  {
    match JsonSpan(text)
    case None => None
    case Some(span) =>
      var c := text[span.0..span.1 + 1];
      assert c == text[span.0..span.1 + 1];
      Some(c)
  }

  /** The outcome of the parse step. */
  datatype Parsed = Parsed(bundle: Json) | Unparsed

  /** The parse step: the strict parse of the whole text is taken as it is, even when it
      yields a value that is not an object; only when it throws is the `{`...`}` span
      parsed, and a result of that is kept only when it is truthy. */
  function ParseText(text: string, parse: string -> Option<Json>): (r: Parsed)
    ensures parse(text).Some? ==> r == Parsed(parse(text).value)
    ensures parse(text).None? && r.Parsed? ==>
      Candidate(text).Some? && parse(Candidate(text).value) == Some(r.bundle) && Truthy(r.bundle)
    ensures r.Unparsed? <==>
      parse(text).None? && (Candidate(text).None? || !TruthyRead(parse(Candidate(text).value)))
  {
    match parse(text)
    case Some(v) => Parsed(v)
    case None =>
      match Candidate(text)
      case None => Unparsed
      case Some(c) =>
        if TruthyRead(parse(c)) then Parsed(parse(c).value) else Unparsed
  }

  const PreviewLimit := 2000

  /** `text.slice(0, 2000)`. */
  function Preview(text: string): (r: string)
    ensures |r| <= PreviewLimit
    ensures StartsWith(text, r)
    ensures |text| <= PreviewLimit ==> r == text
    ensures |text| > PreviewLimit ==> |r| == PreviewLimit
  {
    if |text| <= PreviewLimit then text else text[..PreviewLimit]
  }

  // ---------------------------------------------------------------------------
  // Steps 4 and 5: key mapping and the markup check

  const MarkupAliases: seq<string> := ["index.html", "index", "html"]
  const StyleAliases: seq<string> := ["styles.css", "style.css", "css"]
  const ScriptAliases: seq<string> := ["script.js", "app.js", "js"]

  /** `b[a0] || b[a1] || ... || ""`: the first truthy value among the aliases, in
      order, or "" when none is truthy. Resolution is first-match-wins on
      truthiness: an alias that is present but falsy is passed over. */
  function Resolve(b: Json, aliases: seq<string>): (r: Json)
    ensures Truthy(r) || r == JStr("")
    ensures Truthy(r) <==> exists i :: 0 <= i < |aliases| && TruthyRead(Prop(b, aliases[i]))
    ensures Truthy(r) ==>
      exists i :: 0 <= i < |aliases| && Prop(b, aliases[i]) == Some(r)
                  && forall j :: 0 <= j < i ==> !TruthyRead(Prop(b, aliases[j]))
  {
    ResolveFromFirstTruthy(b, aliases, 0);
    ResolveFrom(b, aliases, 0)
  }

  /** The first truthy value among the aliases from position `i` on, or "". */
  function ResolveFrom(b: Json, aliases: seq<string>, i: nat): (r: Json)
    ensures Truthy(r) || r == JStr("")
    decreases |aliases| - i
  {
    if i >= |aliases| then JStr("")
    else if TruthyRead(Prop(b, aliases[i])) then Prop(b, aliases[i]).value
    else ResolveFrom(b, aliases, i + 1)
  }

  lemma {:induction false} ResolveFromFirstTruthy(b: Json, aliases: seq<string>, i: nat)
    ensures Truthy(ResolveFrom(b, aliases, i)) <==>
      exists k :: i <= k < |aliases| && TruthyRead(Prop(b, aliases[k]))
    ensures Truthy(ResolveFrom(b, aliases, i)) ==>
      exists k :: i <= k < |aliases| && Prop(b, aliases[k]) == Some(ResolveFrom(b, aliases, i))
                  && forall j :: i <= j < k ==> !TruthyRead(Prop(b, aliases[j]))
    decreases |aliases| - i
  {
    if i < |aliases| && !TruthyRead(Prop(b, aliases[i])) {
      ResolveFromFirstTruthy(b, aliases, i + 1);
    }
  }

  /** The alias at position `i` decides the resolution when it holds a truthy value
      and no earlier alias does. */
  lemma ResolveAt(b: Json, aliases: seq<string>, i: nat)
    requires i < |aliases| && TruthyRead(Prop(b, aliases[i]))
    requires forall j :: 0 <= j < i ==> !TruthyRead(Prop(b, aliases[j]))
    ensures Resolve(b, aliases) == Prop(b, aliases[i]).value
  {
  }

  /** With no truthy alias the resolution is "". */
  lemma ResolveNone(b: Json, aliases: seq<string>)
    requires forall j :: 0 <= j < |aliases| ==> !TruthyRead(Prop(b, aliases[j]))
    ensures Resolve(b, aliases) == JStr("")
  {
  }

  /** Steps 4 and 5 on the parsed value. Reading a property of `null` throws, which
      the handler's outer catch turns into a 500; any other value is mapped, and
      the reply is 502 with the value's own keys when no markup alias is truthy. */
  function MapBundle(b: Json, nullReadErrorText: string): (r: Reply)
    ensures b == JNull <==> r.UpstreamOrServerError?
    ensures b == JNull ==> r.detail == JStr(nullReadErrorText)
    ensures b != JNull ==> (r.Bundle? <==> Truthy(Resolve(b, MarkupAliases)))
    ensures b != JNull && !r.Bundle? ==> r == MissingMarkup(Keys(b))
    ensures r.Bundle? ==>
      && Truthy(r.html)
      && r.html == Resolve(b, MarkupAliases)
      && r.css == Resolve(b, StyleAliases)
      && r.js == Resolve(b, ScriptAliases)
  {
    if b == JNull then UpstreamOrServerError(JStr(nullReadErrorText))
    else
      var html := Resolve(b, MarkupAliases);
      var css := Resolve(b, StyleAliases);
      var js := Resolve(b, ScriptAliases);
      if !Truthy(html) then MissingMarkup(Keys(b)) else Bundle(html, css, js)
  }

  /** The whole normaliser, from the upstream payload to the reply. */
  function Normalize(p: Json, rt: Runtime): (r: Reply)
    ensures r.Bundle? || r.InvalidModelOutput? || r.MissingMarkup? || r.UpstreamOrServerError?
    ensures r.Bundle? ==> Truthy(r.html)
    ensures r.Bundle? ==> (Truthy(r.css) || r.css == JStr("")) && (Truthy(r.js) || r.js == JStr(""))
    ensures r.InvalidModelOutput? ==> |r.preview| <= PreviewLimit
  {
    match ToText(Extract(p, rt.stringify), rt.numberText)
    case None => UpstreamOrServerError(JStr(rt.coercionErrorText))
    case Some(raw) =>
      var text := CleanText(raw);
      match ParseText(text, rt.parse)
      case Unparsed => InvalidModelOutput(Preview(text))
      case Parsed(b) => MapBundle(b, rt.nullReadErrorText)
  }
}

=== FILE: normalizer_facts.dfy ===
/** Properties of the response normaliser that relate its steps to each other and
    to the payloads the completion endpoint is known to send. */
module NormalizerFacts {
  import opened Wrappers
  import opened Values
  import opened Text
  import opened Replies
  import opened Normalizer

  // ---------------------------------------------------------------------------
  // The known payload shapes

  /** `{"choices": [{"text": t}]}` */
  function ChoicesTextPayload(t: string): Json {
    JObj([("choices", JArr([JObj([("text", JStr(t))])]))])
  }

  /** `{"choices": [{"message": {"content": t}}]}` */
  function ChoicesMessagePayload(t: string): Json {
    JObj([("choices", JArr([JObj([("message", JObj([("content", JStr(t))]))])]))])
  }

  /** `{"output": [{"content": t}]}` */
  function OutputPayload(t: string): Json {
    JObj([("output", JArr([JObj([("content", JStr(t))])]))])
  }

  /** `{"text": t}` */
  function TextPayload(t: string): Json {
    JObj([("text", JStr(t))])
  }

  lemma ChoicesTextShape(t: string)
    ensures ChoiceText(ChoicesTextPayload(t)) == Some(JStr(t))
  {
    var inner := JObj([("text", JStr(t))]);
    LookupAt(ChoicesTextPayload(t).fields, "choices", 0);
    LookupAt(inner.fields, "text", 0);
  }

  lemma ChoicesMessageShape(t: string)
    ensures ChoiceText(ChoicesMessagePayload(t)) == None
    ensures ChoiceMessage(ChoicesMessagePayload(t)) == Some(JStr(t))
  {
    var content := JObj([("content", JStr(t))]);
    var inner := JObj([("message", content)]);
    LookupAt(ChoicesMessagePayload(t).fields, "choices", 0);
    LookupFindsFirst(inner.fields, "text");
    LookupAt(inner.fields, "message", 0);
    LookupAt(content.fields, "content", 0);
  }

  lemma OutputShape(t: string)
    ensures ChoiceText(OutputPayload(t)) == None
    ensures ChoiceMessage(OutputPayload(t)) == None
    ensures OutputContent(OutputPayload(t)) == Some(JStr(t))
  {
    var inner := JObj([("content", JStr(t))]);
    LookupFindsFirst(OutputPayload(t).fields, "choices");
    LookupAt(OutputPayload(t).fields, "output", 0);
    LookupAt(inner.fields, "content", 0);
  }

  lemma TextShape(t: string)
    ensures ChoiceText(TextPayload(t)) == None
    ensures ChoiceMessage(TextPayload(t)) == None
    ensures OutputContent(TextPayload(t)) == None
    ensures TopText(TextPayload(t)) == Some(JStr(t))
  {
    LookupFindsFirst(TextPayload(t).fields, "choices");
    LookupFindsFirst(TextPayload(t).fields, "output");
    LookupAt(TextPayload(t).fields, "text", 0);
  }

  /** Each of the four known shapes yields exactly the text embedded in it. */
  lemma KnownShapes(t: string, stringify: Json -> string)
    requires t != ""
    ensures Extract(ChoicesTextPayload(t), stringify) == JStr(t)
    ensures Extract(ChoicesMessagePayload(t), stringify) == JStr(t)
    ensures Extract(OutputPayload(t), stringify) == JStr(t)
    ensures Extract(TextPayload(t), stringify) == JStr(t)
  {
    ChoicesTextShape(t);
    ChoicesMessageShape(t);
    OutputShape(t);
    TextShape(t);
  }

  /** An empty text in a known shape does not count: probing moves on, here down to
      the serialised payload. */
  lemma EmptyShapeFallsThrough(stringify: Json -> string)
    ensures Extract(ChoicesTextPayload(""), stringify) == JStr(stringify(ChoicesTextPayload("")))
  {
    var p := ChoicesTextPayload("");
    var inner := JObj([("text", JStr(""))]);
    ChoicesTextShape("");
    LookupFindsFirst(inner.fields, "message");
    LookupFindsFirst(p.fields, "output");
    LookupFindsFirst(p.fields, "text");
  }

  // ---------------------------------------------------------------------------
  // Key mapping

  /** A parsed value other than `null` gives a bundle exactly when one of the markup
      aliases holds a truthy value. */
  lemma BundleIffMarkupAlias(b: Json, nullReadErrorText: string)
    requires b != JNull
    ensures MapBundle(b, nullReadErrorText).Bundle? <==>
      exists i :: 0 <= i < |MarkupAliases| && TruthyRead(Prop(b, MarkupAliases[i]))
  {
  }

  /** Alias resolution takes the first truthy value, not the first present key: an
      empty "index.html" gives way to "index". */
  lemma FirstTruthyNotFirstPresent(h: string)
    requires h != ""
    ensures Resolve(JObj([("index.html", JStr("")), ("index", JStr(h))]), MarkupAliases) == JStr(h)
  {
    var b := JObj([("index.html", JStr("")), ("index", JStr(h))]);
    LookupAt(b.fields, "index.html", 0);
    LookupAt(b.fields, "index", 1);
    ResolveAt(b, MarkupAliases, 1);
  }

  /** An object whose canonical keys hold truthy values is reproduced unchanged,
      whatever other keys it has. */
  lemma CanonicalReproduced(b: Json, nullReadErrorText: string)
    requires b.JObj?
    requires TruthyRead(Prop(b, "index.html"))
    requires TruthyRead(Prop(b, "styles.css"))
    requires TruthyRead(Prop(b, "script.js"))
    ensures MapBundle(b, nullReadErrorText)
         == Bundle(Prop(b, "index.html").value, Prop(b, "styles.css").value, Prop(b, "script.js").value)
  {
    ResolveAt(b, MarkupAliases, 0);
    ResolveAt(b, StyleAliases, 0);
    ResolveAt(b, ScriptAliases, 0);
  }

  /** The nine alias names are pairwise different. */
  lemma AliasesDistinct()
    ensures forall a, b :: 0 <= a < 3 && 0 <= b < 3 ==>
      MarkupAliases[a] != StyleAliases[b] && MarkupAliases[a] != ScriptAliases[b]
      && StyleAliases[a] != ScriptAliases[b]
    ensures forall a, b :: 0 <= a < b < 3 ==>
      MarkupAliases[a] != MarkupAliases[b] && StyleAliases[a] != StyleAliases[b]
      && ScriptAliases[a] != ScriptAliases[b]
  {
  }

  /** A slot whose aliases are all absent but the one at position `i` resolves to
      the value under that alias when it is truthy, and to "" otherwise. */
  lemma SlotResolves(b: Json, aliases: seq<string>, i: nat, v: Json)
    requires i < |aliases| && Prop(b, aliases[i]) == Some(v)
    requires forall m :: 0 <= m < |aliases| && m != i ==> Prop(b, aliases[m]) == None
    ensures Resolve(b, aliases) == if Truthy(v) then v else JStr("")
  {
    if Truthy(v) {
      ResolveAt(b, aliases, i);
    } else {
      ResolveNone(b, aliases);
    }
  }

  /** A slot of an object whose field at `pos` is the slot's alias `i`, and whose other
      fields name none of the slot's aliases, resolves to that field's value when it
      is truthy, and to "" otherwise. */
  lemma FieldSlot(f: seq<(string, Json)>, aliases: seq<string>, i: nat, pos: nat)
    requires i < |aliases| && pos < |f| && f[pos].0 == aliases[i]
    requires forall q, m :: 0 <= q < |f| && 0 <= m < |aliases| && q != pos ==> f[q].0 != aliases[m]
    requires forall m :: 0 <= m < |aliases| && m != i ==> aliases[m] != aliases[i]
    ensures Resolve(JObj(f), aliases) == if Truthy(f[pos].1) then f[pos].1 else JStr("")
  {
    LookupAt(f, aliases[i], pos);
    forall m | 0 <= m < |aliases| && m != i ensures Prop(JObj(f), aliases[m]) == None {
      LookupFindsFirst(f, aliases[m]);
    }
    SlotResolves(JObj(f), aliases, i, f[pos].1);
  }

  /** In an object holding one alias of each slot, every slot resolves to the value
      stored under its alias when that value is truthy, and to "" otherwise. */
  lemma OneAliasPerSlot(i: nat, j: nat, k: nat, h: Json, c: Json, s: Json)
    requires i < 3 && j < 3 && k < 3
    ensures Resolve(JObj([(MarkupAliases[i], h), (StyleAliases[j], c), (ScriptAliases[k], s)]), MarkupAliases)
         == if Truthy(h) then h else JStr("")
    ensures Resolve(JObj([(MarkupAliases[i], h), (StyleAliases[j], c), (ScriptAliases[k], s)]), StyleAliases)
         == if Truthy(c) then c else JStr("")
    ensures Resolve(JObj([(MarkupAliases[i], h), (StyleAliases[j], c), (ScriptAliases[k], s)]), ScriptAliases)
         == if Truthy(s) then s else JStr("")
  {
    MarkupSlot(i, j, k, h, c, s);
    StyleSlot(i, j, k, h, c, s);
    ScriptSlot(i, j, k, h, c, s);
  }

  /** The markup slot of an object holding one alias of each slot. */
  lemma MarkupSlot(i: nat, j: nat, k: nat, h: Json, c: Json, s: Json)
    requires i < 3 && j < 3 && k < 3
    ensures Resolve(JObj([(MarkupAliases[i], h), (StyleAliases[j], c), (ScriptAliases[k], s)]), MarkupAliases)
         == if Truthy(h) then h else JStr("")
  {
    AliasesDistinct();
    FieldSlot([(MarkupAliases[i], h), (StyleAliases[j], c), (ScriptAliases[k], s)], MarkupAliases, i, 0);
  }

  /** The stylesheet slot of an object holding one alias of each slot. */
  lemma StyleSlot(i: nat, j: nat, k: nat, h: Json, c: Json, s: Json)
    requires i < 3 && j < 3 && k < 3
    ensures Resolve(JObj([(MarkupAliases[i], h), (StyleAliases[j], c), (ScriptAliases[k], s)]), StyleAliases)
         == if Truthy(c) then c else JStr("")
  {
    AliasesDistinct();
    FieldSlot([(MarkupAliases[i], h), (StyleAliases[j], c), (ScriptAliases[k], s)], StyleAliases, j, 1);
  }

  /** The script slot of an object holding one alias of each slot. */
  lemma ScriptSlot(i: nat, j: nat, k: nat, h: Json, c: Json, s: Json)
    requires i < 3 && j < 3 && k < 3
    ensures Resolve(JObj([(MarkupAliases[i], h), (StyleAliases[j], c), (ScriptAliases[k], s)]), ScriptAliases)
         == if Truthy(s) then s else JStr("")
  {
    AliasesDistinct();
    FieldSlot([(MarkupAliases[i], h), (StyleAliases[j], c), (ScriptAliases[k], s)], ScriptAliases, k, 2);
  }

  /** An object that names each file by any of its aliases maps to the same files as
      the object with the canonical keys and the same values. Only the markup has to
      be truthy: a falsy stylesheet or script becomes "" either way. */
  lemma AliasesMapLikeCanonical(i: nat, j: nat, k: nat, h: Json, c: Json, s: Json, nullReadErrorText: string)
    requires i < 3 && j < 3 && k < 3
    requires Truthy(h)
    ensures MapBundle(JObj([(MarkupAliases[i], h), (StyleAliases[j], c), (ScriptAliases[k], s)]), nullReadErrorText)
         == MapBundle(JObj([("index.html", h), ("styles.css", c), ("script.js", s)]), nullReadErrorText)
  {
    OneAliasPerSlot(i, j, k, h, c, s);
    OneAliasPerSlot(0, 0, 0, h, c, s);
    assert MarkupAliases[0] == "index.html" && StyleAliases[0] == "styles.css" && ScriptAliases[0] == "script.js";
  }

  /** The stylesheet and the script default to "" while the markup is mandatory: an
      object with only a markup alias, whichever of the three, still gives a bundle. */
  lemma MarkupAloneSuffices(i: nat, h: Json, nullReadErrorText: string)
    requires i < 3 && Truthy(h)
    ensures MapBundle(JObj([(MarkupAliases[i], h)]), nullReadErrorText) == Bundle(h, JStr(""), JStr(""))
  {
    var b := JObj([(MarkupAliases[i], h)]);
    AliasesDistinct();
    LookupAt(b.fields, MarkupAliases[i], 0);
    forall m | 0 <= m < 3 && m != i ensures Prop(b, MarkupAliases[m]) == None {
      LookupFindsFirst(b.fields, MarkupAliases[m]);
    }
    SlotResolves(b, MarkupAliases, i, h);
    forall m | 0 <= m < |StyleAliases| ensures Prop(b, StyleAliases[m]) == None {
      LookupFindsFirst(b.fields, StyleAliases[m]);
    }
    forall m | 0 <= m < |ScriptAliases| ensures Prop(b, ScriptAliases[m]) == None {
      LookupFindsFirst(b.fields, ScriptAliases[m]);
    }
    ResolveNone(b, StyleAliases);
    ResolveNone(b, ScriptAliases);
  }

  // ---------------------------------------------------------------------------
  // The whole normaliser

  /** The cleaned completion text, or None when turning the extracted value into a
      string throws. */
  function CompletionText(p: Json, rt: Runtime): Option<string> {
    match ToText(Extract(p, rt.stringify), rt.numberText)
    case None => None
    case Some(raw) => Some(CleanText(raw))
  }

  /** The normaliser is the composition of its steps: a coercion that throws is the
      500 of the outer catch, an unparsable text the 502 with a preview, and a parsed
      value goes to the key mapping. */
  lemma NormalizeSteps(p: Json, rt: Runtime)
    ensures CompletionText(p, rt).None? ==>
      Normalize(p, rt) == UpstreamOrServerError(JStr(rt.coercionErrorText))
    ensures CompletionText(p, rt).Some? && ParseText(CompletionText(p, rt).value, rt.parse).Unparsed? ==>
      Normalize(p, rt) == InvalidModelOutput(Preview(CompletionText(p, rt).value))
    ensures CompletionText(p, rt).Some? && ParseText(CompletionText(p, rt).value, rt.parse).Parsed? ==>
      Normalize(p, rt) == MapBundle(ParseText(CompletionText(p, rt).value, rt.parse).bundle, rt.nullReadErrorText)
  {
  }

  /** The 502 for text that is not JSON arises exactly when both parses fail, and
      its preview is the first 2000 characters of the cleaned text. */
  lemma InvalidOutputExactly(p: Json, rt: Runtime)
    ensures Normalize(p, rt).InvalidModelOutput? <==>
      CompletionText(p, rt).Some? && ParseText(CompletionText(p, rt).value, rt.parse) == Unparsed
    ensures Normalize(p, rt).InvalidModelOutput? ==>
      && StartsWith(CompletionText(p, rt).value, Normalize(p, rt).preview)
      && |Normalize(p, rt).preview| == if |CompletionText(p, rt).value| < PreviewLimit
                                       then |CompletionText(p, rt).value| else PreviewLimit
  {
    NormalizeSteps(p, rt);
  }

  /** A first choice whose text is an object with an own `toString` field cannot be
      converted to a string: the reply is the 500 of the outer catch, carrying the
      message of that conversion's TypeError, not that of a read of `null`. */
  lemma UncoercibleText(p: Json, rt: Runtime)
    requires !p.JStr?
    requires TruthyRead(ChoiceText(p)) && ChoiceText(p).value.JObj?
    requires Lookup(ChoiceText(p).value.fields, "toString").Some?
    ensures Normalize(p, rt) == UpstreamOrServerError(JStr(rt.coercionErrorText))
  {
    NormalizeSteps(p, rt);
  }

  /** A strict parse that succeeds is final, even when a `{`...`}` span of the same
      text would parse too: `null` leads to the 500 of the outer catch, a number or
      a boolean to a 502 listing no keys. */
  lemma StrictParseIsFinal(p: Json, rt: Runtime, text: string, v: Json)
    requires CompletionText(p, rt) == Some(text) && rt.parse(text) == Some(v)
    ensures Normalize(p, rt) == MapBundle(v, rt.nullReadErrorText)
    ensures v == JNull ==> Normalize(p, rt) == UpstreamOrServerError(JStr(rt.nullReadErrorText))
    ensures v.JNum? || v.JBool? ==> Normalize(p, rt) == MissingMarkup([])
  {
    NormalizeSteps(p, rt);
    if v.JNum? || v.JBool? {
      ResolveNone(v, MarkupAliases);
    }
  }

  /** A payload in none of the four shapes is serialised; `JSON.stringify` yields a
      text with no space and no fence at either end, which `JSON.parse` reads back
      as the payload. So the payload itself goes to key mapping: `null` is the 500
      of the null read, an object with no truthy markup alias the 502 listing its
      keys, and the invalid-JSON 502 never arises. */
  lemma UnrecognisedPayloadMapped(p: Json, rt: Runtime)
    requires !p.JStr?
    requires forall k :: 0 <= k < ShapeCount ==> !TruthyRead(Shape(k, p))
    requires IsTrimmed(rt.stringify(p))
    requires !StartsWith(rt.stringify(p), Fence) && !EndsWith(rt.stringify(p), Fence)
    requires rt.parse(rt.stringify(p)) == Some(p)
    ensures Normalize(p, rt) == MapBundle(p, rt.nullReadErrorText)
    ensures !Normalize(p, rt).InvalidModelOutput?
    ensures p == JNull ==> Normalize(p, rt) == UpstreamOrServerError(JStr(rt.nullReadErrorText))
    ensures p != JNull && !Truthy(Resolve(p, MarkupAliases)) ==> Normalize(p, rt) == MissingMarkup(Keys(p))
  {
    var t := rt.stringify(p);
    ExtractFirstTruthyShape(p, rt.stringify);
    assert Extract(p, rt.stringify) == JStr(t);
    TrimTrimmed(t);
    CleanUnfenced(t);
    assert CompletionText(p, rt) == Some(t);
    StrictParseIsFinal(p, rt, t, p);
  }

  /** An error object from the completion endpoint, such as `{"error": {...}}`, is
      not a completion: it is mapped as if it were the bundle and answered with the
      502 that lists its one key. */
  lemma UpstreamErrorObject(e: Json, rt: Runtime)
    requires IsTrimmed(rt.stringify(JObj([("error", e)])))
    requires !StartsWith(rt.stringify(JObj([("error", e)])), Fence)
    requires !EndsWith(rt.stringify(JObj([("error", e)])), Fence)
    requires rt.parse(rt.stringify(JObj([("error", e)]))) == Some(JObj([("error", e)]))
    ensures Normalize(JObj([("error", e)]), rt) == MissingMarkup(["error"])
  {
    var p := JObj([("error", e)]);
    LookupFindsFirst(p.fields, "choices");
    LookupFindsFirst(p.fields, "output");
    LookupFindsFirst(p.fields, "text");
    forall m | 0 <= m < |MarkupAliases| ensures Prop(p, MarkupAliases[m]) == None {
      LookupFindsFirst(p.fields, MarkupAliases[m]);
    }
    ResolveNone(p, MarkupAliases);
    UnrecognisedPayloadMapped(p, rt);
    assert Keys(p) == ["error"];
  }

  /** The completion text of a first choice's text is that text, cleaned. */
  lemma ChoiceCompletion(t: string, rt: Runtime)
    requires t != ""
    ensures CompletionText(ChoicesTextPayload(t), rt) == Some(CleanText(t))
  {
    KnownShapes(t, rt.stringify);
  }

  /** A fenced `json` block in the first choice, whose trimmed body parses to a
      value with a truthy markup alias, comes back as the bundle of that value. */
  lemma FencedChoiceGivesBundle(body: string, b: Json, rt: Runtime)
    requires rt.parse(Trim(body)) == Some(b)
    requires Truthy(Resolve(b, MarkupAliases))
    ensures Normalize(ChoicesTextPayload("```json\n" + body + "\n```"), rt)
         == Bundle(Resolve(b, MarkupAliases), Resolve(b, StyleAliases), Resolve(b, ScriptAliases))
  {
    var fenced := "```json\n" + body + "\n```";
    var p := ChoicesTextPayload(fenced);
    assert fenced[0] == '`';
    ChoiceCompletion(fenced, rt);
    CleanJsonBlock(body);
    StrictParseIsFinal(p, rt, Trim(body), b);
  }

  /** An object with the three canonical keys, an empty stylesheet and an empty script
      resolves to its markup and two empty strings. */
  lemma EmptyAssetsResolve(h: string)
    requires h != ""
    ensures Prop(JObj([("index.html", JStr(h)), ("styles.css", JStr("")), ("script.js", JStr(""))]), "index.html")
         == Some(JStr(h))
    ensures Resolve(JObj([("index.html", JStr(h)), ("styles.css", JStr("")), ("script.js", JStr(""))]), StyleAliases)
         == JStr("")
    ensures Resolve(JObj([("index.html", JStr(h)), ("styles.css", JStr("")), ("script.js", JStr(""))]), ScriptAliases)
         == JStr("")
  {
    var b := JObj([("index.html", JStr(h)), ("styles.css", JStr("")), ("script.js", JStr(""))]);
    LookupAt(b.fields, "index.html", 0);
    LookupAt(b.fields, "styles.css", 1);
    LookupAt(b.fields, "script.js", 2);
    forall k | 0 <= k < |StyleAliases| ensures !TruthyRead(Prop(b, StyleAliases[k])) {
      LookupFindsFirst(b.fields, StyleAliases[k]);
    }
    forall k | 0 <= k < |ScriptAliases| ensures !TruthyRead(Prop(b, ScriptAliases[k])) {
      LookupFindsFirst(b.fields, ScriptAliases[k]);
    }
    ResolveNone(b, StyleAliases);
    ResolveNone(b, ScriptAliases);
  }

  /** A fenced block whose body parses to the three canonical keys, with an empty
      stylesheet and script, comes back as the markup and two empty strings. */
  lemma FencedBundleWithEmptyAssets(body: string, h: string, rt: Runtime)
    requires h != ""
    requires rt.parse(Trim(body)) == Some(JObj([("index.html", JStr(h)), ("styles.css", JStr("")), ("script.js", JStr(""))]))
    ensures Normalize(ChoicesTextPayload("```json\n" + body + "\n```"), rt) == Bundle(JStr(h), JStr(""), JStr(""))
  {
    var b := JObj([("index.html", JStr(h)), ("styles.css", JStr("")), ("script.js", JStr(""))]);
    EmptyAssetsResolve(h);
    ResolveAt(b, MarkupAliases, 0);
    FencedChoiceGivesBundle(body, b, rt);
  }

  /** The span fallback: when the strict parse fails, a text that holds a `{` before
      a `}` is parsed from its first `{` through its last `}`, and the result is kept
      only when it is truthy. */
  lemma SpanFallback(text: string, parse: string -> Option<Json>)
    requires parse(text).None?
    requires exists i, j :: 0 <= i < j < |text| && text[i] == '{' && text[j] == '}'
    ensures Candidate(text).Some?
    ensures ParseText(text, parse).Parsed? <==> TruthyRead(parse(Candidate(text).value))
    ensures ParseText(text, parse).Parsed? ==> ParseText(text, parse).bundle == parse(Candidate(text).value).value
  {
  }

  /** The span covers every `{` ... `}` pair of the text: it starts at the first `{`
      and ends at the last `}`. */
  lemma SpanIsFirstOpenToLastClose(text: string, i: nat, j: nat)
    requires i < j < |text| && text[i] == '{' && text[j] == '}'
    ensures JsonSpan(text).Some?
    ensures JsonSpan(text).value.0 <= i && j <= JsonSpan(text).value.1
  {
  }
}

=== FILE: replies.dfy ===
/** The answers of the two endpoints: their HTTP status codes and the JSON bodies
    (or, for an archive, the headers and the entries) they carry. */
module Replies {
  import opened Wrappers
  import opened Values

  /** What `POST /api/generate` answers. */
  datatype Reply =
      /** 200: the three files, under their canonical names. */
    | Bundle(html: Json, css: Json, js: Json)
      /** 500: the API key or the endpoint URL is not configured. */
    | Misconfigured
      /** 400: the request carries no usable prompt. */
    | MissingPrompt
      /** 502: neither the cleaned text nor its `{`...`}` span parses. */
    | InvalidModelOutput(preview: string)
      /** 502: no markup alias holds a truthy value; `keys` are the parsed value's keys. */
    | MissingMarkup(keys: seq<string>)
      /** 500: the upstream call failed, or evaluating the payload threw. */
    | UpstreamOrServerError(detail: Json)

  const MisconfiguredMessage := "Server misconfigured: missing GEMINI_API_KEY or GEMINI_API_URL"
  const MissingPromptMessage := "Missing prompt string in request body."
  const InvalidJsonMessage := "Model response not valid JSON"
  const MissingMarkupMessage := "Generated bundle missing index.html"
  const UpstreamMessage := "Upstream or server error"
  const MissingFilesMessage := "Missing files object in body."

  function Status(r: Reply): int {
    match r
    case Bundle(_, _, _) => 200
    case Misconfigured => 500
    case MissingPrompt => 400
    case InvalidModelOutput(_) => 502
    case MissingMarkup(_) => 502
    case UpstreamOrServerError(_) => 500
  }

  function StringList(xs: seq<string>): Json {
    JArr(seq(|xs|, i requires 0 <= i < |xs| => JStr(xs[i])))
  }

  /** The files object of a successful reply. */
  function FilesObject(html: Json, css: Json, js: Json): Json {
    JObj([("index.html", html), ("styles.css", css), ("script.js", js)])
  }

  /** The JSON body sent with the reply. */
  function Body(r: Reply): Json {
    match r
    case Bundle(html, css, js) => JObj([("files", FilesObject(html, css, js))])
    case Misconfigured => JObj([("error", JStr(MisconfiguredMessage))])
    case MissingPrompt => JObj([("error", JStr(MissingPromptMessage))])
    case InvalidModelOutput(preview) =>
      JObj([("error", JStr(InvalidJsonMessage)), ("model_text_preview", JStr(preview))])
    case MissingMarkup(keys) =>
      JObj([("error", JStr(MissingMarkupMessage)), ("keys", StringList(keys))])
    case UpstreamOrServerError(detail) =>
      JObj([("error", JStr(UpstreamMessage)), ("detail", detail)])
  }

  /** What `POST /api/download` answers: a 400 error, or a 200 zip archive holding
      the listed (name, content) entries in order. */
  datatype DownloadReply =
    | MissingFiles
    | Archive(headers: seq<(string, string)>, entries: seq<(string, Json)>)

  /** The JSON body of a download reply: the error object of the 400, and none for
      the archive, which is sent as a zip stream. */
  function DownloadBody(r: DownloadReply): (b: Option<Json>)
    ensures r.MissingFiles? <==> b.Some?
    ensures b.Some? ==> Prop(b.value, "error") == Some(JStr(MissingFilesMessage))
  {
    match r
    case MissingFiles => Some(JObj([("error", JStr(MissingFilesMessage))]))
    case Archive(_, _) => None
  }

  const ZipHeaders: seq<(string, string)> :=
    [("Content-Type", "application/zip"), ("Content-Disposition", "attachment; filename=site.zip")]
}

=== FILE: server.dfy ===
/** The two endpoints of the server around the normaliser: the configuration read
    from the environment, the guards of `POST /api/generate` (server.js:30-44), the
    prompt it sends upstream (server.js:20-28), the treatment of a failed upstream
    call (server.js:111-119), and `POST /api/download` (server.js:123-139). */
module Server {
  import opened Wrappers
  import opened Values
  import opened Text
  import opened Replies
  import opened Normalizer

  // ---------------------------------------------------------------------------
  // Configuration

  /** The settings the server reads once at start-up. */
  datatype Config = Config(apiUrl: string, apiKey: string, model: string)

  const DefaultModel := "gemini-default"

  /** `process.env[name] || fallback`: an unset or empty variable gives the fallback. */
  function EnvOr(env: map<string, string>, name: string, fallback: string): (r: string)
    ensures name in env && env[name] != "" ==> r == env[name]
    ensures !(name in env && env[name] != "") ==> r == fallback
    ensures r == "" ==> fallback == ""
  {
    if name in env && env[name] != "" then env[name] else fallback
  }

  /** The settings read from the environment. The server counts as configured
      exactly when both the key and the URL are set to non-empty values; a set
      variable is taken as it is, and the model name is never empty. */
  function LoadConfig(env: map<string, string>): (cfg: Config)
    ensures Configured(cfg) <==>
      && "GEMINI_API_KEY" in env && env["GEMINI_API_KEY"] != ""
      && "GEMINI_API_URL" in env && env["GEMINI_API_URL"] != ""
    ensures "GEMINI_API_URL" in env && env["GEMINI_API_URL"] != "" ==> cfg.apiUrl == env["GEMINI_API_URL"]
    ensures "GEMINI_API_KEY" in env && env["GEMINI_API_KEY"] != "" ==> cfg.apiKey == env["GEMINI_API_KEY"]
    ensures "GEMINI_MODEL" in env && env["GEMINI_MODEL"] != "" ==> cfg.model == env["GEMINI_MODEL"]
    ensures cfg.model != ""
  {
    Config(EnvOr(env, "GEMINI_API_URL", ""), EnvOr(env, "GEMINI_API_KEY", ""),
           EnvOr(env, "GEMINI_MODEL", DefaultModel))
  }

  /** Both the key and the endpoint URL are set. */
  predicate Configured(cfg: Config) {
    cfg.apiKey != "" && cfg.apiUrl != ""
  }

  // ---------------------------------------------------------------------------
  // The prompt sent upstream

  /** The fixed instructions that precede the user's prompt, up to and including the
      line break after "User prompt:". */
  // The first line is split in two only so that the verifier can read its first
  // character off a short literal.
  const RoleLine := "You are an assistant " + "that outputs a complete simple static website as JSON.\n"
  const FilesLine := "Create three files: \"index.html\", \"styles.css\", and \"script.js\".\n"
  const FormatLine := "Return only valid JSON and nothing else.\n"
  const PromptLead := "User prompt:\n"
  const Instructions := RoleLine + FilesLine + FormatLine + PromptLead

  /** `buildPromptForJson(promptText)`: the template, which starts and ends with a
      line break around the instructions and the prompt, trimmed as a whole. The
      prompt sent upstream is therefore the instructions followed by the user's
      prompt with its trailing spaces removed (its leading spaces are kept); a
      prompt of spaces only leaves just the instructions, ending at "User prompt:". */
  function BuildPrompt(promptText: string): (r: string)
    ensures !AllSpace(promptText) ==> r == Instructions + promptText[..|promptText| - TrailingSpace(promptText)]
    ensures AllSpace(promptText) ==> r == Instructions[..|Instructions| - 1]
  {
    var r := Trim("\n" + Instructions + promptText + "\n");
    InstructionsShape();
    if AllSpace(promptText) then
      PromptWithoutText(Instructions, promptText);
      r
    else
      PromptWithText(Instructions, promptText);
      r
  }

  /** What of the instructions the layout proofs rely on. */
  lemma InstructionsShape()
    ensures |Instructions| >= 2
    ensures !IsSpace(Instructions[0])
    ensures Instructions[|Instructions| - 1] == '\n'
    ensures !IsSpace(Instructions[|Instructions| - 2])
  {
    assert Instructions[0] == RoleLine[0];
    assert Instructions[|Instructions| - 1] == PromptLead[12];
    assert Instructions[|Instructions| - 2] == PromptLead[11];
  }

  // Automatic induction over the two strings only slows this direct proof down.
  /** The trimmed template around a prompt with some non-space character: the
      instructions, then the prompt without its trailing spaces. Leading spaces of
      the prompt are kept, because they sit inside the text. */
  lemma {:induction false} PromptWithText(head: string, p: string)
    requires |head| >= 1 && !IsSpace(head[0])
    requires !AllSpace(p)
    ensures Trim("\n" + head + p + "\n") == head + p[..|p| - TrailingSpace(p)]
  {
    var k := |p| - TrailingSpace(p);
    assert k > 0;
    var t := head + p[..k];
    var b := p[k..] + "\n";
    assert AllSpace(b);
    assert IsTrimmed(t) by {
      assert t[|t| - 1] == p[k - 1];
    }
    assert "\n" + head + p + "\n" == "\n" + t + b by {
      assert p == p[..k] + p[k..];
    }
    TrimUnique("\n", t, b);
  }

  /** The trimmed template around a prompt of spaces only: the instructions without
      their final line break. */
  lemma PromptWithoutText(head: string, p: string)
    requires |head| >= 2 && !IsSpace(head[0])
    requires head[|head| - 1] == '\n' && !IsSpace(head[|head| - 2])
    requires AllSpace(p)
    ensures Trim("\n" + head + p + "\n") == head[..|head| - 1]
  {
    var t := head[..|head| - 1];
    var b := "\n" + p + "\n";
    assert AllSpace(b) by {
      assert forall i :: 1 <= i < |b| - 1 ==> b[i] == p[i - 1];
    }
    assert head == t + "\n";
    assert "\n" + head + p + "\n" == "\n" + t + b;
    TrimUnique("\n", t, b);
  }

  // ---------------------------------------------------------------------------
  // The upstream call

  const MaxTokens := 2000
  const TimeoutMillis := 30000

  /** The POST the server makes: the endpoint, the headers, the JSON body and the
      timeout. */
  datatype Request = Request(url: string, headers: seq<(string, string)>, body: Json, timeoutMillis: nat)

  function UpstreamRequest(cfg: Config, promptText: string): Request {
    Request(
      cfg.apiUrl,
      [("Content-Type", "application/json"), ("Authorization", "Bearer " + cfg.apiKey)],
      JObj([("model", JStr(cfg.model)), ("prompt", JStr(BuildPrompt(promptText))),
            ("max_tokens", JNum(MaxTokens as real))]),
      TimeoutMillis)
  }

  /** How the call ended: the data of a response, or a failure carrying the data of
      an error response (if there was one), the error's message, and `String(err)`. */
  datatype Outcome =
    | Delivered(payload: Json)
    | Failed(responseData: Option<Json>, message: string, rendered: string)

  /** `err?.response?.data || err.message || String(err)`. */
  function FailureDetail(responseData: Option<Json>, message: string, rendered: string): (r: Json)
    ensures TruthyRead(responseData) ==> r == responseData.value
    ensures !TruthyRead(responseData) ==> r == JStr(if message != "" then message else rendered)
  {
    if TruthyRead(responseData) then responseData.value
    else if message != "" then JStr(message)
    else JStr(rendered)
  }

  /** The reply to an upstream outcome: the normaliser on delivered data, the 500 of
      the outer catch on a failure. */
  function Respond(o: Outcome, rt: Runtime): (r: Reply)
    ensures o.Delivered? ==> r == Normalize(o.payload, rt)
    ensures o.Failed? ==> r == UpstreamOrServerError(FailureDetail(o.responseData, o.message, o.rendered))
    ensures o.Failed? ==> Status(r) == 500
    ensures r != Misconfigured && r != MissingPrompt
  {
    match o
    case Delivered(payload) => Normalize(payload, rt)
    case Failed(data, message, rendered) => UpstreamOrServerError(FailureDetail(data, message, rendered))
  }

  // ---------------------------------------------------------------------------
  // POST /api/generate

  /** `!prompt || typeof prompt !== "string"`: a missing prompt, a value of another
      type, or the empty string. */
  predicate PromptRejected(prompt: Option<Json>) {
    !TruthyRead(prompt) || TypeOf(prompt) != "string"
  }

  /** One request to the endpoint: the upstream call made, if any, and the reply. */
  datatype Exchange = Exchange(sent: Option<Request>, reply: Reply)

  /** The handler. `call` stands for the upstream endpoint; the configuration is
      checked first, then the prompt, and only then is the call made. */
  function Generate(cfg: Config, body: Json, call: Request -> Outcome, rt: Runtime): (x: Exchange)
    ensures x.reply == Misconfigured <==> !Configured(cfg)
    ensures x.reply == MissingPrompt <==> Configured(cfg) && PromptRejected(Prop(body, "prompt"))
    ensures x.sent.None? <==> x.reply == Misconfigured || x.reply == MissingPrompt
    ensures x.sent.Some? ==>
      && Prop(body, "prompt").Some? && Prop(body, "prompt").value.JStr?
      && Prop(body, "prompt").value.s != ""
      && x.sent.value == UpstreamRequest(cfg, Prop(body, "prompt").value.s)
      && x.reply == Respond(call(x.sent.value), rt)
  {
    if !Configured(cfg) then Exchange(None, Misconfigured)
    else
      var prompt := Prop(body, "prompt");
      if PromptRejected(prompt) then Exchange(None, MissingPrompt)
      else
        var req := UpstreamRequest(cfg, prompt.value.s);
        Exchange(Some(req), Respond(call(req), rt))
  }

  /** A misconfigured server answers 500 whatever the request, before looking at the
      prompt, and makes no call. */
  lemma MisconfigurationFirst(cfg: Config, body: Json, call: Request -> Outcome, rt: Runtime)
    requires !Configured(cfg)
    ensures Status(Generate(cfg, body, call, rt).reply) == 500
    ensures Body(Generate(cfg, body, call, rt).reply) == JObj([("error", JStr(MisconfiguredMessage))])
    ensures Generate(cfg, body, call, rt).sent == None
  {
  }

  /** The status of the answer is 400 exactly when the server is configured and the
      prompt is missing, empty or not a string. */
  lemma BadPromptIs400(cfg: Config, body: Json, call: Request -> Outcome, rt: Runtime)
    ensures Status(Generate(cfg, body, call, rt).reply) == 400 <==>
      Configured(cfg) && PromptRejected(Prop(body, "prompt"))
  {
  }

  /** An empty prompt is rejected with a 400 and no upstream call. */
  lemma EmptyPromptRejected(cfg: Config, call: Request -> Outcome, rt: Runtime)
    requires Configured(cfg)
    ensures Generate(cfg, JObj([("prompt", JStr(""))]), call, rt) == Exchange(None, MissingPrompt)
  {
    LookupAt([("prompt", JStr(""))], "prompt", 0);
  }

  /** The prompt is not trimmed before the check: a prompt of spaces passes it, and
      the text sent upstream is then the instructions alone. */
  lemma SpacePromptAccepted(cfg: Config, p: string, call: Request -> Outcome, rt: Runtime)
    requires Configured(cfg)
    requires p != "" && AllSpace(p)
    ensures Generate(cfg, JObj([("prompt", JStr(p))]), call, rt).sent.Some?
    ensures Generate(cfg, JObj([("prompt", JStr(p))]), call, rt).sent.value.body
         == JObj([("model", JStr(cfg.model)), ("prompt", JStr(Instructions[..|Instructions| - 1])),
                  ("max_tokens", JNum(2000.0))])
  {
    LookupAt([("prompt", JStr(p))], "prompt", 0);
  }

  /** A failed upstream call gives the 500 whose detail is the error response's data
      when it is truthy, else the error's message, else its rendering. */
  lemma UpstreamFailure(cfg: Config, p: string, data: Option<Json>, message: string, rendered: string,
                        call: Request -> Outcome, rt: Runtime)
    requires Configured(cfg) && p != ""
    requires call(UpstreamRequest(cfg, p)) == Failed(data, message, rendered)
    ensures Generate(cfg, JObj([("prompt", JStr(p))]), call, rt).sent == Some(UpstreamRequest(cfg, p))
    ensures Generate(cfg, JObj([("prompt", JStr(p))]), call, rt).reply
         == UpstreamOrServerError(FailureDetail(data, message, rendered))
    ensures Status(Generate(cfg, JObj([("prompt", JStr(p))]), call, rt).reply) == 500
  {
    var body := JObj([("prompt", JStr(p))]);
    LookupAt(body.fields, "prompt", 0);
    var x := Generate(cfg, body, call, rt);
    assert !PromptRejected(Prop(body, "prompt"));
    assert x.sent == Some(UpstreamRequest(cfg, p));
    assert x.reply == Respond(Failed(data, message, rendered), rt);
  }

  // ---------------------------------------------------------------------------
  // POST /api/download

  /** `content || ""`: a falsy content becomes the empty string. */
  function EntryContent(c: Json): (r: Json)
    ensures Truthy(c) ==> r == c
    ensures !Truthy(c) ==> r == JStr("")
  {
    if Truthy(c) then c else JStr("")
  }

  /** The handler: a body whose `files` is missing, falsy or not an object (arrays are
      objects) gets a 400; otherwise the archive holds one entry per own enumerable
      property, in order, the content defaulting to "". */
  function Download(body: Json): (r: DownloadReply)
    ensures r.MissingFiles? <==> !(Prop(body, "files").Some? && (Prop(body, "files").value.JObj? || Prop(body, "files").value.JArr?))
    ensures r.Archive? ==> r.headers == ZipHeaders
    ensures r.Archive? ==> |r.entries| == |Keys(Prop(body, "files").value)|
    ensures r.Archive? ==> forall i :: 0 <= i < |r.entries| ==>
      && r.entries[i].0 == Keys(Prop(body, "files").value)[i]
      && r.entries[i].1 == EntryContent(Entries(Prop(body, "files").value)[i].1)
  {
    var files := Prop(body, "files");
    if !TruthyRead(files) || TypeOf(files) != "object" then MissingFiles
    else
      var es := Entries(files.value);
      KeysAreEntryNames(files.value);
      Archive(ZipHeaders, seq(|es|, i requires 0 <= i < |es| => (es[i].0, EntryContent(es[i].1))))
  }

  /** The archive round trip: an object of named entries whose contents are truthy or
      the empty string is archived entry for entry, in order, with the same names
      and the same contents. */
  lemma DownloadKeepsEntries(fields: seq<(string, Json)>)
    requires forall i :: 0 <= i < |fields| ==> Truthy(fields[i].1) || fields[i].1 == JStr("")
    ensures Download(JObj([("files", JObj(fields))])) == Archive(ZipHeaders, fields)
  {
    LookupAt([("files", JObj(fields))], "files", 0);
    var r := Download(JObj([("files", JObj(fields))]));
    assert r.entries == fields;
  }

  /** The front end posts back the `files` object of a successful generation; the
      archive then holds exactly the three files, under their canonical names and
      with their contents, since the stylesheet and the script of a bundle are truthy
      or already "". */
  lemma DownloadOfGenerated(html: Json, css: Json, js: Json)
    requires Truthy(html)
    requires Truthy(css) || css == JStr("")
    requires Truthy(js) || js == JStr("")
    ensures Download(JObj([("files", Prop(Body(Bundle(html, css, js)), "files").value)]))
         == Archive(ZipHeaders, [("index.html", html), ("styles.css", css), ("script.js", js)])
  {
    var files := FilesObject(html, css, js);
    LookupAt(Body(Bundle(html, css, js)).fields, "files", 0);
    LookupAt([("files", files)], "files", 0);
    var r := Download(JObj([("files", files)]));
    assert r.entries == [("index.html", html), ("styles.css", css), ("script.js", js)];
  }

  /** Every reply of the normaliser that is a bundle survives the round trip through
      the download endpoint. */
  lemma GeneratedBundleDownloads(p: Json, rt: Runtime)
    requires Normalize(p, rt).Bundle?
    ensures Download(JObj([("files", Prop(Body(Normalize(p, rt)), "files").value)]))
         == Archive(ZipHeaders, [("index.html", Normalize(p, rt).html),
                                 ("styles.css", Normalize(p, rt).css),
                                 ("script.js", Normalize(p, rt).js)])
  {
    var r := Normalize(p, rt);
    DownloadOfGenerated(r.html, r.css, r.js);
  }
}

=== FILE: text.dfy ===
/** The string operations of JavaScript the server uses: `String.prototype.trim`,
    `indexOf` and `lastIndexOf` on a single character, and prefix and suffix tests. */
module Text {

  /** The characters `trim` removes and the regular expression class `\s` matches:
      the WhiteSpace and LineTerminator code points of ECMAScript (tab, vertical tab,
      form feed, space, no-break space, the byte-order mark, the other space
      separators of Unicode category Zs, line feed, carriage return, and the line and
      paragraph separators). */
  predicate IsSpace(c: char) {
    var n := c as int;
    || n == 0x09 || n == 0x0A || n == 0x0B || n == 0x0C || n == 0x0D
    || n == 0x20 || n == 0xA0 || n == 0x1680
    || (0x2000 <= n <= 0x200A)
    || n == 0x2028 || n == 0x2029 || n == 0x202F || n == 0x205F
    || n == 0x3000 || n == 0xFEFF
  }

  predicate AllSpace(s: string) {
    forall i :: 0 <= i < |s| ==> IsSpace(s[i])
  }

  /** Neither end of `t` is a space (the empty string included). */
  predicate IsTrimmed(t: string) {
    |t| == 0 || (!IsSpace(t[0]) && !IsSpace(t[|t| - 1]))
  }

  /** `r` occurs in `s` as a contiguous run of characters. */
  ghost predicate SliceOf(r: string, s: string) {
    exists i, j :: 0 <= i <= j <= |s| && r == s[i..j]
  }

  predicate StartsWith(s: string, prefix: string) {
    |prefix| <= |s| && s[..|prefix|] == prefix
  }

  predicate EndsWith(s: string, suffix: string) {
    |suffix| <= |s| && s[|s| - |suffix|..] == suffix
  }

  /** The number of space characters at the start of `s`. */
  function LeadingSpace(s: string): (n: nat)
    ensures n <= |s|
    ensures AllSpace(s[..n])
    ensures n < |s| ==> !IsSpace(s[n])
  {
    if |s| > 0 && IsSpace(s[0]) then
      var n := 1 + LeadingSpace(s[1..]);
      assert forall i :: 1 <= i < n ==> s[..n][i] == s[1..][..n - 1][i - 1];
      n
    else 0
  }

  /** The number of space characters at the end of `s`. */
  function TrailingSpace(s: string): (n: nat)
    ensures n <= |s|
    ensures forall k :: |s| - n <= k < |s| ==> IsSpace(s[k])
    ensures n < |s| ==> !IsSpace(s[|s| - n - 1])
  {
    if |s| > 0 && IsSpace(s[|s| - 1]) then 1 + TrailingSpace(s[..|s| - 1]) else 0
  }

  /** `s.trim()`: the text between the leading and the trailing run of spaces. The
      result has no space at either end and is no longer than `s`. */
  function Trim(s: string): (r: string)
    ensures IsTrimmed(r)
    ensures |r| <= |s|
    ensures AllSpace(s) <==> r == ""
  {
    var a := LeadingSpace(s);
    var rest := s[a..];
    var b := TrailingSpace(rest);
    var r := rest[..|rest| - b];
    assert |r| > 0 ==> r[0] == rest[0] && r[|r| - 1] == rest[|rest| - b - 1];
    assert |r| == 0 ==> a == |s| && s[..a] == s;
    assert |r| > 0 ==> !IsSpace(s[a]);
    r
  }

  /** The leading run of spaces of `s + x` is that of `s`, unless `s` is all spaces, in
      which case it continues into `x`. */
  lemma {:induction false} LeadingSpaceConcat(s: string, x: string)
    ensures LeadingSpace(s + x) == if LeadingSpace(s) < |s| then LeadingSpace(s) else |s| + LeadingSpace(x)
  {
    if |s| == 0 {
      assert s + x == x;
    } else if IsSpace(s[0]) {
      assert (s + x)[1..] == s[1..] + x;
      LeadingSpaceConcat(s[1..], x);
    }
  }

  /** Trimming removes only spaces, and only at the ends: what remains is a run of
      `s` with no space at either end, and everything outside it is space. */
  lemma TrimShape(s: string)
    ensures IsTrimmed(Trim(s))
    ensures exists i, j :: 0 <= i <= j <= |s| && Trim(s) == s[i..j]
                           && AllSpace(s[..i]) && AllSpace(s[j..])
  {
    var a := LeadingSpace(s);
    var rest := s[a..];
    var b := TrailingSpace(rest);
    var j := a + |rest| - b;
    assert Trim(s) == s[a..j];
    assert s[j..] == rest[|rest| - b..];
    if |rest| - b > 0 {
      assert !IsSpace(rest[0]);
      assert !IsSpace(rest[|rest| - b - 1]);
    }
  }

  /** Trimming has a unique answer: whenever `s` is a run of spaces, a trimmed text
      and another run of spaces, `trim` returns that text. */
  lemma TrimUnique(a: string, t: string, b: string)
    requires AllSpace(a) && AllSpace(b) && IsTrimmed(t)
    ensures Trim(a + t + b) == t
  {
    var s := a + t + b;
    if |t| == 0 {
      assert AllSpace(s) by {
        assert forall i :: 0 <= i < |s| ==> s[i] == (if i < |a| then a[i] else b[i - |a|]);
      }
      AllSpaceLeading(s);
    } else {
      assert s[..|a|] == a;
      assert s[|a|] == t[0];
      var n := LeadingSpace(s);
      assert n == |a|;
      var rest := s[|a|..];
      assert rest == t + b;
      var m := TrailingSpace(rest);
      assert rest[|t| - 1] == t[|t| - 1];
      assert m == |b|;
      assert rest[..|rest| - m] == t;
    }
  }

  /** A string made only of spaces trims to "". */
  lemma AllSpaceLeading(s: string)
    requires AllSpace(s)
    ensures LeadingSpace(s) == |s|
    ensures Trim(s) == ""
  {
  }

  /** A text with no space at either end is its own trim. */
  lemma TrimTrimmed(t: string)
    requires IsTrimmed(t)
    ensures Trim(t) == t
  {
    TrimUnique("", t, "");
    assert "" + t + "" == t;
  }

  /** Trimming twice is trimming once. */
  lemma TrimIdempotent(s: string)
    ensures Trim(Trim(s)) == Trim(s)
  {
    TrimUnique("", Trim(s), "");
    assert "" + Trim(s) + "" == Trim(s);
  }

  /** `s.indexOf(c)`: the first position of `c`, or -1 when `c` does not occur. */
  function IndexOf(s: string, c: char): (r: int)
    ensures -1 <= r < |s|
    ensures r >= 0 ==> s[r] == c && forall k :: 0 <= k < r ==> s[k] != c
    ensures r == -1 <==> forall k :: 0 <= k < |s| ==> s[k] != c
  {
    if |s| == 0 then -1
    else if s[0] == c then 0
    else
      var r := IndexOf(s[1..], c);
      assert forall k :: 1 <= k < |s| ==> s[k] == s[1..][k - 1];
      if r == -1 then -1 else r + 1
  }

  /** `s.lastIndexOf(c)`: the last position of `c`, or -1 when `c` does not occur. */
  function LastIndexOf(s: string, c: char): (r: int)
    ensures -1 <= r < |s|
    ensures r >= 0 ==> s[r] == c && forall k :: r < k < |s| ==> s[k] != c
    ensures r == -1 <==> forall k :: 0 <= k < |s| ==> s[k] != c
  {
    if |s| == 0 then -1
    else if s[|s| - 1] == c then |s| - 1
    else LastIndexOf(s[..|s| - 1], c)
  }
}

=== FILE: values.dfy ===
/** JavaScript values as `JSON.parse` produces them, and the few operations of the
    language the server applies to them: truthiness, `typeof`, property reads with
    optional chaining, `Object.keys`, `Object.entries` and string coercion. */
module Values {
  import opened Wrappers

  /** A value a JSON text denotes. The fields of an object are listed in the order of
      its own properties, which is the order `Object.keys` reports them in. Numbers are
      reals; the infinities `JSON.parse` yields for out-of-range numerals are left to
      the runtime, which is a parameter everywhere below. */
  datatype Json =
    | JNull
    | JBool(b: bool)
    | JNum(n: real)
    | JStr(s: string)
    | JArr(elems: seq<Json>)
    | JObj(fields: seq<(string, Json)>)

  /** The built-ins of the JavaScript runtime the server relies on but whose internals
      are not modelled: `JSON.parse` (None when it throws), `JSON.stringify`, the
      decimal rendering of a number, and the messages of the two TypeErrors the
      handler can meet: converting an object that has no usable `toString` to a
      string, and reading a property of `null`. */
  datatype Runtime = Runtime(
    parse: string -> Option<Json>,
    stringify: Json -> string,
    numberText: real -> string,
    coercionErrorText: string,
    nullReadErrorText: string)

  /** JavaScript truthiness: `null`, `false`, `0` and `""` are falsy, every array and
      every object is truthy. */
  predicate Truthy(v: Json) {
    match v
    case JNull => false
    case JBool(b) => b
    case JNum(n) => n != 0.0
    case JStr(s) => s != ""
    case _ => true
  }

  /** Truthiness of the result of a property read, where `None` is `undefined`. */
  predicate TruthyRead(o: Option<Json>) {
    o.Some? && Truthy(o.value)
  }

  /** The `typeof` operator; `None` is `undefined`. */
  function TypeOf(o: Option<Json>): string {
    match o
    case None => "undefined"
    case Some(v) =>
      match v
      case JBool(_) => "boolean"
      case JNum(_) => "number"
      case JStr(_) => "string"
      case _ => "object"
  }

  /** The value of the first field called `key`. */
  function Lookup(fields: seq<(string, Json)>, key: string): Option<Json> {
    LookupFrom(fields, key, 0)
  }

  /** The value of the first field called `key` at or after position `i`. */
  function LookupFrom(fields: seq<(string, Json)>, key: string, i: nat): Option<Json>
    decreases |fields| - i
  {
    if i >= |fields| then None
    else if fields[i].0 == key then Some(fields[i].1)
    else LookupFrom(fields, key, i + 1)
  }

  /** A lookup from position `i` finds nothing exactly when no field from there on has
      the name, and otherwise the value of the first field from there on that has it. */
  lemma {:induction false} LookupFromFindsFirst(fields: seq<(string, Json)>, key: string, i: nat)
    ensures LookupFrom(fields, key, i).None? <==> forall k :: i <= k < |fields| ==> fields[k].0 != key
    ensures LookupFrom(fields, key, i).Some? ==>
      exists k :: i <= k < |fields| && fields[k] == (key, LookupFrom(fields, key, i).value)
                  && forall j :: i <= j < k ==> fields[j].0 != key
    decreases |fields| - i
  {
    if i < |fields| && fields[i].0 != key {
      LookupFromFindsFirst(fields, key, i + 1);
    }
  }

  /** A lookup finds nothing exactly when no field has the name, and otherwise the
      value of the first field that has it. */
  lemma LookupFindsFirst(fields: seq<(string, Json)>, key: string)
    ensures Lookup(fields, key).None? <==> forall k :: 0 <= k < |fields| ==> fields[k].0 != key
    ensures Lookup(fields, key).Some? ==>
      exists k :: 0 <= k < |fields| && fields[k] == (key, Lookup(fields, key).value)
                  && forall j :: 0 <= j < k ==> fields[j].0 != key
  {
    LookupFromFindsFirst(fields, key, 0);
  }

  /** The field at position `i` decides the lookup when no earlier field has its name. */
  lemma LookupAt(fields: seq<(string, Json)>, key: string, i: nat)
    requires i < |fields| && fields[i].0 == key
    requires forall j :: 0 <= j < i ==> fields[j].0 != key
    ensures Lookup(fields, key) == Some(fields[i].1)
  {
    LookupFindsFirst(fields, key);
  }

  /** `v[key]` (and `v?.[key]`) for a property name that is not an array index, not
      `length` and not a member of any built-in prototype. Every name the server reads
      is of that kind, so only an object's own fields can supply a value. */
  function Prop(v: Json, key: string): Option<Json> {
    match v
    case JObj(fields) => Lookup(fields, key)
    case _ => None
  }

  /** `o?.[key]`: undefined stays undefined. */
  function OptProp(o: Option<Json>, key: string): Option<Json> {
    match o
    case None => None
    case Some(v) => Prop(v, key)
  }

  /** `o?.[0]`: the first element of an array, the first character of a string, or an
      object's field called "0". */
  function OptIndex0(o: Option<Json>): Option<Json> {
    match o
    case None => None
    case Some(v) =>
      match v
      case JArr(a) => if |a| > 0 then Some(a[0]) else None
      case JStr(s) => if |s| > 0 then Some(JStr([s[0]])) else None
      case JObj(fields) => Lookup(fields, "0")
      case _ => None
  }

  /** The decimal digit for `d`. */
  function Digit(d: nat): char
    requires d < 10
  {
    "0123456789"[d]
  }

  predicate IsDigit(c: char) {
    '0' <= c <= '9'
  }

  /** The canonical decimal numeral of `n`, as JavaScript names array indices. */
  function DecimalText(n: nat): (r: string)
    ensures |r| >= 1
    ensures forall i :: 0 <= i < |r| ==> IsDigit(r[i])
    ensures r[0] == '0' ==> n == 0
  {
    if n < 10 then [Digit(n)] else DecimalText(n / 10) + [Digit(n % 10)]
  }

  /** The number a string of decimal digits denotes. */
  function DecimalValue(s: string): int
    requires forall i :: 0 <= i < |s| ==> IsDigit(s[i])
  {
    if |s| == 0 then 0
    else DecimalValue(s[..|s| - 1]) * 10 + (s[|s| - 1] as int - '0' as int)
  }

  /** An index name denotes the index it was made from. */
  lemma {:induction false} DecimalRoundTrip(n: nat)
    ensures DecimalValue(DecimalText(n)) == n
  {
    if n >= 10 {
      var s := DecimalText(n);
      assert s[..|s| - 1] == DecimalText(n / 10);
      DecimalRoundTrip(n / 10);
    }
  }

  /** Two different indices have different names. */
  lemma DecimalInjective(m: nat, n: nat)
    requires DecimalText(m) == DecimalText(n)
    ensures m == n
  {
    DecimalRoundTrip(m);
    DecimalRoundTrip(n);
  }

  /** The names "0", "1", ... of the first `n` indices. */
  function IndexNames(n: nat): seq<string> {
    seq(n, i requires 0 <= i => DecimalText(i))
  }

  /** `Object.keys(v)` for a value other than null. */
  function Keys(v: Json): seq<string> {
    match v
    case JObj(fields) => seq(|fields|, i requires 0 <= i < |fields| => fields[i].0)
    case JArr(a) => IndexNames(|a|)
    case JStr(s) => IndexNames(|s|)
    case _ => []
  }

  /** `Object.keys` of an array or a string names each index once: the key list has
      no repeats. */
  lemma IndexKeysDistinct(v: Json)
    requires v.JArr? || v.JStr?
    ensures forall i, j :: 0 <= i < j < |Keys(v)| ==> Keys(v)[i] != Keys(v)[j]
  {
    forall i, j | 0 <= i < j < |Keys(v)| ensures Keys(v)[i] != Keys(v)[j] {
      if Keys(v)[i] == Keys(v)[j] {
        DecimalInjective(i, j);
      }
    }
  }

  /** `Object.entries(v)` for a value other than null. */
  function Entries(v: Json): seq<(string, Json)> {
    match v
    case JObj(fields) => fields
    case JArr(a) => seq(|a|, i requires 0 <= i < |a| => (DecimalText(i), a[i]))
    case JStr(s) => seq(|s|, i requires 0 <= i < |s| => (DecimalText(i), JStr([s[i]])))
    case _ => []
  }

  /** `Object.keys` lists exactly the names `Object.entries` pairs with values. */
  lemma KeysAreEntryNames(v: Json)
    ensures |Keys(v)| == |Entries(v)|
    ensures forall i :: 0 <= i < |Keys(v)| ==> Keys(v)[i] == Entries(v)[i].0
  {
  }

  /** The string `"" + v` evaluates to, or None when the coercion throws a TypeError. A
      plain object becomes "[object Object]" unless it has an own field "toString":
      JSON cannot make that field callable, so the conversion finds no usable method
      and throws. An array joins its elements' texts with ",", `null` giving "". */
  function ToText(v: Json, numberText: real -> string): (r: Option<string>)
    ensures v.JStr? ==> r == Some(v.s)
    ensures r.None? ==> v.JObj? || v.JArr?
    ensures v.JObj? ==> (r.None? <==> Lookup(v.fields, "toString").Some?)
    ensures v.JArr? ==> (r.None? <==> exists i :: 0 <= i < |v.elems| && v.elems[i] != JNull && ToText(v.elems[i], numberText).None?)
    decreases v, 1, 0
  {
    match v
    case JNull => Some("null")
    case JBool(b) => Some(if b then "true" else "false")
    case JNum(n) => Some(numberText(n))
    case JStr(s) => Some(s)
    case JArr(a) => JoinTexts(a, numberText, v)
    case JObj(fields) =>
      if Lookup(fields, "toString").Some? then None else Some("[object Object]")
  }

  /** `a.join(",")`, or None when converting some element throws. The join throws
      exactly when converting some element other than `null` throws. */
  function JoinTexts(a: seq<Json>, numberText: real -> string, ghost parent: Json): (r: Option<string>)
    requires forall i :: 0 <= i < |a| ==> a[i] < parent
    ensures r.None? <==> exists i :: 0 <= i < |a| && a[i] != JNull && ToText(a[i], numberText).None?
    decreases parent, 0, |a|
  {
    if |a| == 0 then Some("")
    else
      var first := if a[0] == JNull then Some("") else ToText(a[0], numberText);
      if first.None? then None
      else if |a| == 1 then first
      else
        var tail := JoinTexts(a[1..], numberText, parent);
        assert forall i :: 1 <= i < |a| ==> a[i] == a[1..][i - 1];
        match tail
        case None => None
        case Some(rest) => Some(first.value + "," + rest)
  }

  /** A string payload is its own text, and the coercion throws only on values that
      are neither strings nor numbers nor booleans nor null. */
  lemma ToTextOfPrimitive(v: Json, numberText: real -> string)
    requires !v.JArr? && !v.JObj?
    ensures ToText(v, numberText).Some?
    ensures v.JStr? ==> ToText(v, numberText) == Some(v.s)
  {
  }
}

=== FILE: wrappers.dfy ===
/** The optional-value datatype the rest of the model uses for JavaScript's
    `undefined` and for operations that may fail. */
module Wrappers {

  /** `None` stands for an absent value; `Some(v)` carries a present one. */
  datatype Option<+T> = None | Some(value: T)
}
